=== FILE: README.md ===
# The Daily arXiv pipeline, modelled in Dafny

The Daily arXiv is four pipeline scripts. They run once a day over the computer-science arXiv feed:

1. `scripts/1_arxiv_daily_rss.py` turns the RSS feed into flat article records and names the day's data file.
2. `scripts/2_gemini_daily_embeddings.py` embeds each record's abstract through the Gemini embedding service:
   - it sends chunks of 100 abstracts;
   - it tries each chunk at most three times;
   - it attaches the vectors to the records with `zip`.
3. `scripts/3_cluster_daily_articles.py` labels the day's records with the trained UMAP reducer and HDBSCAN clusterer and draws a labelled 2-D plot.
4. `scripts/0_train_models.py` gathers the embeddings of every daily file. It fits the 20-dimensional reducer, the clusterer (on the reduced data) and the 2-D reducer, then dumps the three models.

The model keeps the scripts' own logic and treats every external call as a parameter:

- the embedding service is `embed(request, n)`, the answer to the `n`-th call of a run, or None when the call raises;
- directory listings are sequences of (name, is-file, ctime) entries;
- reading a data file is a function from path to records;
- UMAP's `fit_transform` and `transform`, and HDBSCAN's `fit_predict` and `approximate_predict`, are functions of the model's configuration, its fit data and the points;
- the `../models` directory is a map from path to pickled model.

Modules:

| file | module | models |
|---|---|---|
| `wrappers.dfy` | `Wrappers` | Option and Result |
| `text.dfy` | `Text` | Python's `str.find`, `str.split`, `str.join`, `str.strip`, zero-padded decimal digits |
| `records.dfy` | `Records` | the daily record (the seven feed keys plus `embedding` and `embedding_model`) |
| `arxiv_rss.dfy` | `ArxivRss` | script 1 |
| `files.dfy` | `Files` | `get_file_list`, `get_most_recent_file` (written identically in scripts 2 and 3) and the file choice both `daily_processing` drivers begin with |
| `gemini_embeddings.dfy` | `GeminiEmbeddings` | script 2 |
| `labels.dfy` | `Labels` | noise count, `np.unique`, `max(labels) + 2` |
| `models.dfy` | `Models` | the factories, the model objects, the model directory |
| `training.dfy` | `Training` | script 0 |
| `clustering.dfy` | `ClusterDaily` | script 3, and the lemmas that connect the scripts |

Observations the model makes precise:

- **Silent misalignment.** A chunk whose three attempts all fail adds nothing and raises nothing. Every later vector then moves one chunk earlier: vector `j` of the next chunk lands where text `j` of the failed chunk sits (`GeminiEmbeddings.ShiftedVector`), so the record holding the first abstract of the failed chunk receives the vector of the first abstract of the next chunk, and the last records receive none (`GeminiEmbeddings.FailureShiftsLater`, `GeminiEmbeddings.EntryGetsLaterVector`). The clustering step then fails on that file, because a record has no `embedding` (`ClusterDaily.SkippedChunkBreaksExtraction`).
- **Prediction data.** `hdbscan_clusterer` defaults `prediction_data` to False and `train_models` never overrides it. HDBSCAN's `approximate_predict` refuses a clusterer fit without prediction data. So labelling new records with the models training writes always ends in that error (`ClusterDaily.TrainedClustererRefused`).
- **The point mask.** At scripts/3_cluster_daily_articles.py:53, `labels == label` compares a Python list with a NumPy integer taken from `np.unique`. The list declines the comparison and NumPy's reflected comparison broadcasts over it. The result is one boolean per point, so each scatter call draws exactly the points with that label. The model keeps that mask (`ClusterDaily.Mask`), and `ClusterDaily.SeriesPartitionPoints` shows that the series partition the points.
- **Model-name stamp.** Records are stamped with `embedding_model` = "gemini-1.0-pro-001", the name of the generative model configured at the top of script 2. The vectors themselves come from "models/embedding-001". The model keeps both constants as the script has them.

## Model

| member | source | states |
|---|---|---|
| Text.Find | scripts/1_arxiv_daily_rss.py:53 | the first occurrence of the separator, or None exactly when it occurs nowhere |
| Text.Split | scripts/1_arxiv_daily_rss.py:53 | `str.split(sep)` yields at least one piece |
| Text.SplitPartsFree | scripts/1_arxiv_daily_rss.py:53 | no piece of a split contains the separator |
| Text.JoinSplit | scripts/1_arxiv_daily_rss.py:53 | joining the pieces of a split with the separator gives back the string |
| Text.Join | scripts/1_arxiv_daily_rss.py:59 | `sep.join`: empty for no parts, the part for one, otherwise a string that begins with the first part followed by the separator (the whole value is pinned by `Text.SplitJoin`) |
| Text.SplitJoin | scripts/1_arxiv_daily_rss.py:59 | splitting a join with a one-character separator gives back the parts, when no part holds the separator |
| Text.SplitLast | scripts/1_arxiv_daily_rss.py:80 | the last piece of a split is a suffix of the string, either the whole string or preceded by the separator |
| Text.Strip | scripts/1_arxiv_daily_rss.py:54 | `str.strip()` is a slice with only whitespace cut on each side, and it neither starts nor ends with whitespace |
| Text.StripFree | scripts/1_arxiv_daily_rss.py:54 | stripping cannot create an occurrence of a pattern |
| Text.Digits | scripts/1_arxiv_daily_rss.py:79 | the zero-padded field has the given width and only decimal digits |
| Text.DigitsRoundTrip | scripts/1_arxiv_daily_rss.py:79 | a zero-padded field decodes back to the number when the number fits the width |
| ArxivRss.ExtractAbstract | scripts/1_arxiv_daily_rss.py:52-56 | the abstract is empty when the summary is empty or has no marker; it never contains the marker and has no surrounding whitespace |
| ArxivRss.SegmentEnd | scripts/1_arxiv_daily_rss.py:53-54 | the text after a marker ends at the next marker or at the end of the summary, and no marker starts before that point |
| ArxivRss.AbstractBetweenMarkers | scripts/1_arxiv_daily_rss.py:53-54 | when the summary has the marker, the abstract is the stripped text from the first marker to the next marker or to the end |
| ArxivRss.Terms | scripts/1_arxiv_daily_rss.py:59 | one term per tag, in tag order |
| ArxivRss.Category | scripts/1_arxiv_daily_rss.py:59 | empty without tags, the term for one tag, otherwise a string that begins with the first term and a comma (the whole value is pinned by `ArxivRss.CategoryRoundTrip`) |
| ArxivRss.CategoryRoundTrip | scripts/1_arxiv_daily_rss.py:59 | splitting the category on commas recovers the terms when there is a tag and no term has a comma; no tags give an empty category that splits into one empty term |
| ArxivRss.ToRecord | scripts/1_arxiv_daily_rss.py:47-72 | title, guid, link, rights and creator are copied; abstract and category are derived as above; no embedding keys |
| ArxivRss.ParseArxivRss | scripts/1_arxiv_daily_rss.py:42-74 | exactly one record per feed entry, in entry order |
| ArxivRss.Section | scripts/1_arxiv_daily_rss.py:80 | the section holds no `/`, is a suffix of the link, and is the whole link or preceded by `/` |
| ArxivRss.FormatDate | scripts/1_arxiv_daily_rss.py:79 | `%Y_%m_%d` is ten characters |
| ArxivRss.RssName | scripts/1_arxiv_daily_rss.py:77-81 | the name is the ten-character date, `_`, then the section |
| ArxivRss.RssNameRoundTrip | scripts/1_arxiv_daily_rss.py:78-81 | the name decodes back to the feed date's year, month and day and to the section |
| Files.PathJoin | scripts/0_train_models.py:23 | the joined path ends with the entry name |
| Files.GetFileList | scripts/0_train_models.py:22-25 | no more files than listing entries |
| Files.GetFileListAppend | scripts/0_train_models.py:22-25 | the files keep listing order: a longer listing appends its files |
| Files.GetFileListMembership | scripts/0_train_models.py:22-25 | a path is listed exactly when a regular-file entry joins to it |
| Files.NoFilesNoList | scripts/0_train_models.py:24 | the file list is empty exactly when no entry is a regular file |
| Files.MostRecentIndex | scripts/2_gemini_daily_embeddings.py:69-74 | None exactly when there is no regular file; otherwise a regular file with the largest ctime, the first among ties |
| Files.MostRecentUnique | scripts/2_gemini_daily_embeddings.py:74 | the stable reverse sort's head is unique |
| Files.GetMostRecentFile | scripts/2_gemini_daily_embeddings.py:68-75 | None exactly when the file list is empty; otherwise the path of the most recent regular file, which is in the file list |
| Files.ChosenFile | scripts/3_cluster_daily_articles.py:76-77 | the given file, else the most recent file of `../data`; None exactly when neither exists |
| GeminiEmbeddings.Chunks | scripts/2_gemini_daily_embeddings.py:46-47 | no chunk is empty or longer than the chunk size, and only the last may be shorter |
| GeminiEmbeddings.ChunksConcat | scripts/2_gemini_daily_embeddings.py:46-47 | the chunks concatenate back to the abstracts |
| GeminiEmbeddings.ChunkSlices | scripts/2_gemini_daily_embeddings.py:46-47 | chunk `c` is the slice from the `c`-th multiple of the chunk size up to the next multiple, cut at the end |
| GeminiEmbeddings.OffsetIsProduct | scripts/2_gemini_daily_embeddings.py:46 | the `c`-th step of `range(0, len(abstracts), chunk_size)` is `c * chunk_size` |
| GeminiEmbeddings.TryChunk | scripts/2_gemini_daily_embeddings.py:48-63 | at most `max_retries` calls per chunk; a chunk with no result made all of them; a result is the answer of the last call |
| GeminiEmbeddings.FailedCalls | scripts/2_gemini_daily_embeddings.py:48-63 | every call of a chunk before the one that answered failed, and every call of a chunk that got nothing failed |
| GeminiEmbeddings.EmbedChunk | scripts/2_gemini_daily_embeddings.py:48-63 | the retry loop computes `TryChunk` |
| GeminiEmbeddings.Run | scripts/2_gemini_daily_embeddings.py:46-63 | the run records exactly one outcome per chunk (which chunk each outcome belongs to is `GeminiEmbeddings.RunOutcomeAt`) |
| GeminiEmbeddings.EmbedByChunk | scripts/2_gemini_daily_embeddings.py:41-65 | a zero chunk size raises, a negative one gives an empty result, a positive one runs every chunk |
| GeminiEmbeddings.GetEmbeddingsByChunk | scripts/2_gemini_daily_embeddings.py:41-65 | the loop computes the chunk-by-chunk run; a zero chunk size is refused as `range` refuses it |
| GeminiEmbeddings.RunOutcomeAt | scripts/2_gemini_daily_embeddings.py:48-49 | each chunk is tried afresh, from the call after all earlier chunks' calls |
| GeminiEmbeddings.CallsPerChunk | scripts/2_gemini_daily_embeddings.py:49-62 | per chunk: at most `max_retries` calls; a failed chunk made exactly that many failed calls; a success is the last call's answer |
| GeminiEmbeddings.CallsBound | scripts/2_gemini_daily_embeddings.py:46-63 | the whole run makes at most chunks times `max_retries` calls |
| GeminiEmbeddings.NoRetriesNoCalls | scripts/2_gemini_daily_embeddings.py:49 | with `max_retries <= 0` no call is made and the result is empty |
| GeminiEmbeddings.RunIsFlatten | scripts/2_gemini_daily_embeddings.py:57 | the result is the successful chunks' vectors concatenated in chunk order |
| GeminiEmbeddings.ContributionLengths | scripts/2_gemini_daily_embeddings.py:57 | with one vector per text, a chunk adds as many vectors as it has texts when it succeeds, none otherwise |
| GeminiEmbeddings.LengthIffAllSucceeded | scripts/2_gemini_daily_embeddings.py:46-65 | with one vector per text, the result never exceeds the abstracts, and matches their number exactly when every chunk succeeded |
| GeminiEmbeddings.AlignedWhenAllSucceeded | scripts/2_gemini_daily_embeddings.py:46-65 | when all chunks succeed, the vector at each position answers the abstract at that position |
| GeminiEmbeddings.ShiftedVector | scripts/2_gemini_daily_embeddings.py:57 | after a failed chunk, the whole next chunk moves down: its vector `j` sits `j` past where the failed chunk starts |
| GeminiEmbeddings.FailureShiftsLater | scripts/2_gemini_daily_embeddings.py:57 | after a failed chunk, the first position of that chunk holds the next chunk's first vector, and the result is short |
| GeminiEmbeddings.Attach | scripts/2_gemini_daily_embeddings.py:86-87 | the entry gains the vector and the model name, and no other key changes |
| GeminiEmbeddings.Attached | scripts/2_gemini_daily_embeddings.py:85-87 | the first `min(len(embeddings), len(arxiv))` entries gain the vector and the model name, in order; the others are unchanged |
| GeminiEmbeddings.AttachEmbeddings | scripts/2_gemini_daily_embeddings.py:85-87 | the in-place `zip` loop leaves the entries as `Attached` describes |
| GeminiEmbeddings.Abstracts | scripts/2_gemini_daily_embeddings.py:83 | one abstract per record, in record order |
| GeminiEmbeddings.DailyEmbeddings | scripts/2_gemini_daily_embeddings.py:83-87 | the records gain the vectors of a run with chunk size 100, three attempts and task type "clustering" |
| GeminiEmbeddings.DailyProcessing | scripts/2_gemini_daily_embeddings.py:78-89 | no given file and none in `../data` fails as `gzip.open(None)` does; otherwise the chosen file's records gain the default run's vectors and are written to `../data/` followed by the file name |
| GeminiEmbeddings.EntryGetsOwnVector | scripts/2_gemini_daily_embeddings.py:85-86 | when all chunks succeed, each record receives the vector answered for its own abstract |
| GeminiEmbeddings.EntryGetsLaterVector | scripts/2_gemini_daily_embeddings.py:84-86 | after a failed chunk, the record at the failed chunk's first position receives the first vector of the next chunk, and the last record is left exactly as it was read (no vector attached) |
| Labels.CountNoise | scripts/3_cluster_daily_articles.py:50 | the noise count is at most the number of labels; it is zero exactly when no label is -1, and full exactly when all are |
| Labels.CountNoiseIsMultiplicity | scripts/3_cluster_daily_articles.py:50 | the noise count is the multiplicity of -1 |
| Labels.CountNoisePermutation | scripts/0_train_models.py:87 | the noise count does not depend on label order |
| Labels.InsertSorted | scripts/3_cluster_daily_articles.py:48 | inserting keeps the sequence strictly ascending and adds exactly the new element |
| Labels.Unique | scripts/3_cluster_daily_articles.py:48 | `np.unique` is strictly ascending (so duplicate-free) with the same elements as the labels |
| Labels.SortedSetUnique | scripts/3_cluster_daily_articles.py:48 | two strictly ascending sequences with the same elements are equal |
| Labels.UniqueIsCanonical | scripts/3_cluster_daily_articles.py:48 | any strictly ascending sequence with the labels' elements is `np.unique`'s result |
| Labels.Max | scripts/0_train_models.py:88 | `max` is one of the labels and bounds all of them |
| Labels.LabelCount | scripts/0_train_models.py:88 | `max(labels) + 2` fails exactly on no labels; otherwise it is two more than the largest label |
| Labels.LabelCountCountsDistinct | scripts/0_train_models.py:88 | with noise present and clusters 0..m all used, the count is the number of distinct labels |
| Labels.LabelCountWithoutNoise | scripts/0_train_models.py:88 | without noise and with clusters 0..m all used, the count is one more than the number of distinct labels |
| Models.UmapReducer | scripts/0_train_models.py:36-42 | each argument reaches the UMAP parameter of the same name |
| Models.UmapReducer2d | scripts/0_train_models.py:45-51 | each argument reaches the UMAP parameter of the same name |
| Models.HdbscanClusterer | scripts/0_train_models.py:54-62 | each argument reaches the HDBSCAN parameter of the same name |
| Models.FactoryDefaults | scripts/0_train_models.py:36-62 | the defaults are 30/0.0/20/cosine, 15/0.1/2/cosine, and 250/5/0.0/euclidean/eom without prediction data |
| Models.ArtifactPathsDistinct | scripts/0_train_models.py:73-75 | the three dump paths differ |
| Models.Reducer.FitTransform | scripts/0_train_models.py:70 | fitting records the data and returns its embedding under the reducer's configuration |
| Models.Reducer.Fit | scripts/0_train_models.py:72 | fitting records the data and keeps the configuration |
| Models.Clusterer.FitPredict | scripts/0_train_models.py:71 | fitting records the data and returns the labels for it |
| Models.ModelDirectory.Dump | scripts/0_train_models.py:73-75 | a dump replaces the artifact at its path and nothing else |
| Training.AllRecords | scripts/0_train_models.py:28-32 | no files give no records (the empty frame), and one file gives exactly that file's records |
| Training.AllRecordsAppend | scripts/0_train_models.py:31-32 | records accumulate file by file in list order |
| Training.EmbeddingColumn | scripts/0_train_models.py:33 | KeyError exactly when no record has an embedding; otherwise one cell per record, in order |
| Training.GetTrainingData | scripts/0_train_models.py:28-33 | the loop gives the embedding column of all records of all listed files, in list order |
| Training.TrainingDataOrder | scripts/0_train_models.py:28-33 | adding files only appends to the training data |
| Training.Complete | scripts/0_train_models.py:70 | the column is usable exactly when no cell is missing, and then keeps every vector in order |
| Training.TrainedModels | scripts/0_train_models.py:73-75 | the directory keeps its paths and gains the three model paths |
| Training.TrainedModelsWiring | scripts/0_train_models.py:65-76 | the main and 2-D reducers are fit on the embeddings, the clusterer on the main reducer's output, all with default parameters and no prediction data; other files are untouched |
| Training.TrainModels | scripts/0_train_models.py:65-76 | on success the labels come from the clusterer fit on the reduced embeddings, and the directory holds the trained models; on a data error nothing is dumped |
| Training.TrainingSummary | scripts/0_train_models.py:84-88 | observations are the label count, noise is the multiplicity of -1 and at most that, and the printed cluster count is `Labels.LabelCount`: `max(labels) + 2`, whose value minus two is a label and bounds every label, failing only on no labels |
| ClusterDaily.LoadsTrainedPaths | scripts/3_cluster_daily_articles.py:24-25 | inference loads exactly the paths training writes |
| ClusterDaily.ReducerTransform | scripts/3_cluster_daily_articles.py:26 | a transform succeeds exactly on a fitted reducer |
| ClusterDaily.Predict | scripts/3_cluster_daily_articles.py:24-27 | prediction succeeds exactly when both models are present, fitted, of the right kind, and the clusterer has prediction data; without prediction data it fails only with a load, fit or prediction-data error |
| ClusterDaily.GetClusterLabels | scripts/3_cluster_daily_articles.py:23-30 | as written, the two returned lists are equal |
| ClusterDaily.ProbabilityIsLabel | scripts/3_cluster_daily_articles.py:29 | as written, a noise point's "probability" is -1, outside [0, 1] |
| ClusterDaily.GetClusterLabelsAndStrengths | scripts/3_cluster_daily_articles.py:23-30 | labels and strengths are the `approximate_predict` answer for the stored clusterer on the stored reducer's transform of these embeddings; the labels are those of `get_cluster_labels` |
| ClusterDaily.DescriptionDomain | scripts/3_cluster_daily_articles.py:34-45 | the description table is defined exactly for -1..9 |
| ClusterDaily.Mask | scripts/3_cluster_daily_articles.py:53 | the mask selects exactly the points with the given label |
| ClusterDaily.PlotSeries | scripts/3_cluster_daily_articles.py:52-57 | one series per unique label, in order, with its description, lightgrey exactly for noise and the default colour otherwise; KeyError at the first label outside the table |
| ClusterDaily.PlotClusters | scripts/3_cluster_daily_articles.py:33-62 | fails exactly when the 2-D model is missing or unfitted or a label has no description; otherwise the series are `PlotSeries` of the unique labels and the title counts are the number of labels and of -1 labels |
| ClusterDaily.PlotSeriesFailsOutsideTable | scripts/3_cluster_daily_articles.py:55-57 | plotting fails exactly when some point's label is outside -1..9 |
| ClusterDaily.SeriesPartitionPoints | scripts/3_cluster_daily_articles.py:52-57 | every point is drawn by exactly one series |
| ClusterDaily.ExtractEmbeddings | scripts/3_cluster_daily_articles.py:80 | one vector per record in order, or KeyError at the first record without one |
| ClusterDaily.DailyProcessing | scripts/3_cluster_daily_articles.py:75-83 | no data file gives an error; a plot is exactly `plot_2d_clusters` of the chosen file's embeddings and their predicted labels, one observation per label; it fails exactly when there is no file, a record lacks its embedding, prediction fails or plotting fails |
| ClusterDaily.TrainedClustererRefused | scripts/0_train_models.py:54-62 | inference with the models training writes fails for lack of prediction data |
| ClusterDaily.ExtractAttached | scripts/3_cluster_daily_articles.py:80 | on records that had no embedding, reading back the attached vectors succeeds exactly when there was one per record, and then yields them in order |
| ClusterDaily.SkippedChunkBreaksExtraction | scripts/2_gemini_daily_embeddings.py:83-87 | on fresh records, the clustering step can read the embeddings exactly when every chunk succeeded, and then reads the run's vectors in order |

## Left out

- Fetching and parsing the feed (`retrieve_arxiv_rss`), writing the gzipped JSON (`write_json`) and the `daily_processing` driver of script 1 are network and file I/O. The model starts from the parsed entries and a parsed date.
- `datetime.strptime` of the feed date is not modelled. The date arrives as year, month and day in its own offset.
- ArxivRss.FormatDate: always pads the year to four digits. `strftime('%Y')` pads years below 1000 differently on different platforms.
- ArxivRss.ToRecord: the model assumes every feed item has `title`, `link`, `summary`, `id`, `tags`, `rights` and `author`. In the source an item lacking one of them (for example an item with no `<category>`, hence no `tags`) raises `AttributeError` and aborts the whole parse; `ArxivRss.Entry` always carries every field, so the model has no such failure and would give such an item an empty category.
- The Gemini configuration, the safety settings and the `embed_content` call are network I/O. They are the `embed` parameter. `time.sleep(10)` and the progress prints do nothing the model can observe.
- Reading and writing the gzipped JSON files in script 2 and `joblib` (de)serialisation are file I/O. Records are values, and the model directory is a map.
- UMAP and HDBSCAN numerics are function parameters. Their randomness folds into those functions.
- Training.Complete: UMAP refusing a column with missing values (NaN) is modelled as an error before any fit. The precise exception UMAP raises is not modelled.
- Training.EmbeddingColumn: a record whose `embedding` key is present but null counts as one without the key. ClusterDaily.ExtractEmbeddings does the same: for such a record Python passes `None` on and fails later in `transform`, whereas the model reports `MissingEmbedding` at that record. Records.Record has no way to say "present but null", because `embedding` is an Option.
- Matplotlib rendering (figure size, scatter coordinates, legend placement, `savefig`) is left out. The plot is its series and title counts.
- `ClusterDaily.PlotSeries` computes the series as a function. The plotting loop's side effects are rendering.

## Findings

| source | as written | input that shows it | evidently intended | confidence | as-written member | corrected member |
|---|---|---|---|---|---|---|
| scripts/3_cluster_daily_articles.py:29 | the "probabilities" list is built from `data[0]`, the labels, again | any prediction with a noise point: its probability is -1 | the membership strengths `data[1]` that `approximate_predict` returns | high; not executed | ClusterDaily.GetClusterLabels | ClusterDaily.GetClusterLabelsAndStrengths |

=== FILE: arxiv_rss.dfy ===
/**
 * scripts/1_arxiv_daily_rss.py: turning the entries of the arXiv RSS feed
 * into flat records and naming the daily file.
 */
module ArxivRss {
  import opened Wrappers
  import opened Text
  import opened Records

  datatype Tag = Tag(term: string)

  /** The fields of one feed item that the parser reads. */
  datatype Entry = Entry(
    title: string,
    link: string,
    summary: string,
    id: string,
    tags: seq<Tag>,
    rights: string,
    author: string)

  /** The calendar date of the feed's `published` field, in the date's own offset. */
  datatype PublishedDate = PublishedDate(year: nat, month: nat, day: nat)

  /** The separator between the announcement header and the abstract in an item summary. */
  const AbstractMarker := "\nAbstract:"

  const CategorySeparator := ","

  /**
   * The abstract of an item: the whitespace-stripped second piece of the
   * summary split on the marker, or empty when the summary is empty or has
   * no marker.
   */
  function ExtractAbstract(summary: string): (text: string)
    ensures summary == "" || Free(summary, AbstractMarker) ==> text == ""
    ensures Free(text, AbstractMarker)
    ensures Stripped(text)
  {
    if summary == "" then ""
    else
      var parts := Split(summary, AbstractMarker);
      if |parts| > 1 then
        SplitPartsFree(summary, AbstractMarker);
        assert parts[1] in parts;
        StripFree(parts[1], AbstractMarker);
        Strip(parts[1])
      else ""
  }

  /** An occurrence at or after `lo` is an occurrence in the suffix from `lo`. */
  lemma IsAtSuffix(s: string, pat: string, lo: nat)
    requires lo <= |s|
    ensures forall i: nat :: lo <= i && IsAt(s, pat, i) ==> IsAt(s[lo..], pat, i - lo)
  {
    forall i: nat | lo <= i && IsAt(s, pat, i)
      ensures IsAt(s[lo..], pat, i - lo)
    {
      assert s[lo..][i - lo..i - lo + |pat|] == s[i..i + |pat|];
    }
  }

  /** Where the text after a marker ends: at the next marker, or at the end of the summary. */
  function SegmentEnd(summary: string, start: nat): (end: nat)
    requires start <= |summary|
    ensures start <= end <= |summary|
    ensures end == |summary| || IsAt(summary, AbstractMarker, end)
    ensures forall k :: start <= k < end ==> !IsAt(summary, AbstractMarker, k)
  {
    IsAtSuffix(summary, AbstractMarker, start);
    match Find(summary[start..], AbstractMarker)
    case None => |summary|
    case Some(j) =>
      assert summary[start..] == summary[start..|summary|];
      IsAtSlice(summary, AbstractMarker, start, |summary|, j);
      start + j
  }

  /**
   * When the summary has the marker, the abstract is the stripped text from
   * the end of the first marker up to the next marker, or to the end of the
   * summary when there is no next one.
   */
  lemma AbstractBetweenMarkers(summary: string, i: nat)
    requires Find(summary, AbstractMarker) == Some(i)
    ensures i + |AbstractMarker| <= |summary|
    ensures var start := i + |AbstractMarker|;
      ExtractAbstract(summary) == Strip(summary[start..SegmentEnd(summary, start)])
  {
    var start := i + |AbstractMarker|;
    assert IsAt(summary, AbstractMarker, i);
    var tail := Split(summary[start..], AbstractMarker);
    var parts := Split(summary, AbstractMarker);
    assert parts == [summary[..i]] + tail;
    assert |parts| > 1 && parts[1] == tail[0];
    FirstPieceIsSegment(summary, start);
  }

  /** The first piece after `start` runs up to the segment's end. */
  lemma FirstPieceIsSegment(summary: string, start: nat)
    requires start <= |summary|
    ensures Split(summary[start..], AbstractMarker)[0] == summary[start..SegmentEnd(summary, start)]
  {
    var rest := summary[start..];
    assert rest == summary[start..|summary|];
    match Find(rest, AbstractMarker)
    case None =>
      assert Split(rest, AbstractMarker) == [rest];
    case Some(j) =>
      assert Split(rest, AbstractMarker)[0] == rest[..j];
      assert rest[..j] == summary[start..start + j];
  }

  function Terms(tags: seq<Tag>): (terms: seq<string>)
    ensures |terms| == |tags|
    ensures forall k :: 0 <= k < |tags| ==> terms[k] == tags[k].term
  {
    seq(|tags|, k requires 0 <= k < |tags| => tags[k].term)
  }

  /**
   * The `category` field: the tag terms joined by commas, so empty without
   * tags, the term itself for one tag, and otherwise the first term, a comma
   * and the rest.
   */
  function Category(tags: seq<Tag>): (category: string)
    ensures |tags| == 0 ==> category == ""
    ensures |tags| == 1 ==> category == tags[0].term
    ensures |tags| > 1 ==> tags[0].term + "," <= category
  {
    Join(Terms(tags), CategorySeparator)
  }

  /**
   * Splitting the category on commas recovers the tag terms when there is at
   * least one tag and no term contains a comma; with no tags the category is
   * empty and splits into one empty term.
   */
  lemma CategoryRoundTrip(tags: seq<Tag>)
    requires forall k :: 0 <= k < |tags| ==> ',' !in tags[k].term
    ensures |tags| > 0 ==> Split(Category(tags), CategorySeparator) == Terms(tags)
    ensures |tags| == 0 ==> Category(tags) == "" && Split(Category(tags), CategorySeparator) == [""]
  {
    if |tags| > 0 {
      var terms := Terms(tags);
      forall p | p in terms
        ensures CategorySeparator[0] !in p
      {
        var k :| 0 <= k < |terms| && terms[k] == p;
      }
      SplitJoin(terms, CategorySeparator);
    } else {
      assert Find("", CategorySeparator).None?;
    }
  }

  /** The record written for one feed item. */
  function ToRecord(e: Entry): (r: Record)
    ensures r.title == e.title && r.guid == e.id && r.link == e.link
    ensures r.rights == e.rights && r.creator == e.author
    ensures r.abstractText == ExtractAbstract(e.summary)
    ensures r.category == Category(e.tags)
    ensures r.embedding.None? && r.embeddingModel.None?
  {
    Record(
      title := e.title,
      abstractText := ExtractAbstract(e.summary),
      guid := e.id,
      category := Category(e.tags),
      link := e.link,
      rights := e.rights,
      creator := e.author,
      embedding := None,
      embeddingModel := None)
  }

  /** `parse_arxiv_rss`: one record per feed item, appended in item order. */
  method ParseArxivRss(entries: seq<Entry>) returns (data: seq<Record>)
    ensures |data| == |entries|
    ensures forall k :: 0 <= k < |entries| ==> data[k] == ToRecord(entries[k])
  {
    data := [];
    for i := 0 to |entries|
      invariant data == seq(i, k requires 0 <= k < i => ToRecord(entries[k]))
    {
      data := data + [ToRecord(entries[i])];
    }
  }

  /**
   * The feed section: the last `/`-separated piece of the feed link. It is a
   * suffix of the link, holds no `/`, and is either the whole link or
   * preceded by a `/`.
   */
  function Section(link: string): (section: string)
    ensures '/' !in section
    ensures |section| <= |link| && link[|link| - |section|..] == section
    ensures |section| < |link| ==> link[|link| - |section| - 1] == '/'
  {
    var parts := Split(link, "/");
    SplitPartsFree(link, "/");
    SplitLast(link, "/");
    assert Last(parts) in parts;
    CharIsAt(Last(parts), '/');
    Last(parts)
  }

  /** `strftime('%Y_%m_%d')`. */
  function FormatDate(d: PublishedDate): (s: string)
    ensures |s| == 10
  {
    Digits(d.year, 4) + "_" + Digits(d.month, 2) + "_" + Digits(d.day, 2)
  }

  /** `get_arxiv_rss_name`: the formatted date, an underscore, then the section. */
  function RssName(d: PublishedDate, link: string): (name: string)
    ensures |name| == 11 + |Section(link)|
    ensures name[10] == '_' && name[11..] == Section(link)
  {
    FormatDate(d) + "_" + Section(link)
  }

  /**
   * The name can be read back: its first ten characters are the date as
   * `YYYY_MM_DD`, which decode to the year, month and day of the feed date,
   * and what follows the eleventh character is the section.
   */
  lemma RssNameRoundTrip(d: PublishedDate, link: string)
    requires 1 <= d.year <= 9999 && 1 <= d.month <= 12 && 1 <= d.day <= 31
    ensures var name := RssName(d, link);
      && name[4] == '_' && name[7] == '_' && name[10] == '_'
      && (forall i :: 0 <= i < 10 && i != 4 && i != 7 ==> '0' <= name[i] <= '9')
      && DecimalValue(name[..4]) == d.year
      && DecimalValue(name[5..7]) == d.month
      && DecimalValue(name[8..10]) == d.day
      && name[11..] == Section(link)
  {
    var name := RssName(d, link);
    var year, month, day := Digits(d.year, 4), Digits(d.month, 2), Digits(d.day, 2);
    assert name == year + "_" + month + "_" + day + "_" + Section(link);
    assert name[..4] == year && name[5..7] == month && name[8..10] == day;
    DateDigitsRoundTrip(d);
  }

  /** Each field of the formatted date reads back as its number. */
  lemma DateDigitsRoundTrip(d: PublishedDate)
    requires 1 <= d.year <= 9999 && 1 <= d.month <= 12 && 1 <= d.day <= 31
    ensures DecimalValue(Digits(d.year, 4)) == d.year
    ensures DecimalValue(Digits(d.month, 2)) == d.month
    ensures DecimalValue(Digits(d.day, 2)) == d.day
  {
    assert Pow10(2) == 100 && Pow10(4) == 10000 by {
      assert Pow10(1) == 10;
      assert Pow10(3) == 1000;
    }
    DigitsRoundTrip(d.year, 4);
    DigitsRoundTrip(d.month, 2);
    DigitsRoundTrip(d.day, 2);
  }
}

=== FILE: clustering.dfy ===
/**
 * scripts/3_cluster_daily_articles.py: labelling the day's records with the
 * trained models and preparing the 2-D plot.
 *
 * The numerics are parameters: `Transform` stands for a fitted UMAP model's
 * `transform`, `ApproximatePredict` for `hdbscan.approximate_predict`
 * (labels and membership strengths). A pickled model is read from a map of
 * paths to artifacts, and the day's file from a `read` parameter.
 */
module ClusterDaily {
  import opened Wrappers
  import opened Records
  import opened Models
  import opened Labels
  import Files
  import Training
  import GeminiEmbeddings

  const UmapModelFile := "../models/umap_model.pkl"
  const HdbscanModelFile := "../models/hdbscan_model.pkl"
  const Umap2dModelFile := "../models/umap_2d_model.pkl"

  /** Inference loads exactly the three paths training writes. */
  lemma LoadsTrainedPaths()
    ensures UmapModelFile == UmapPath && HdbscanModelFile == HdbscanPath && Umap2dModelFile == Umap2dPath
  {
  }

  /** A fitted reducer's `transform`: configuration, fit data, new points. */
  type Transform = (UmapConfig, seq<Vector>, seq<Vector>) -> seq<Vector>

  /** `approximate_predict`: configuration, fit data, new points; labels and strengths. */
  type ApproximatePredict = (HdbscanConfig, seq<Vector>, seq<Vector>) -> (seq<int>, seq<real>)

  datatype ClusterError =
    | NoDataFile                    // `gzip.open(None)` when `../data` has no file
    | MissingEmbedding(index: nat)  // `d["embedding"]` raises KeyError
    | FileNotFound(path: string)    // `joblib.load` of a missing file
    | NotAReducer(path: string)     // the object has no UMAP `transform`
    | NotAClusterer(path: string)   // the object is no HDBSCAN clusterer
    | NotFitted(path: string)
    | NoPredictionData             // the clusterer was fit without `prediction_data=True`
    | UnknownLabel(cluster: int)      // `cluster_descriptions[label]` raises KeyError

  /** A loaded reducer's `transform` of `points`, refused when the object is no fitted reducer. */
  function ReducerTransform(a: Artifact, path: string, points: seq<Vector>, transform: Transform)
    : (r: Result<seq<Vector>, ClusterError>)
    ensures r.Success? <==> a.UmapArtifact? && a.umapFitData.Some?
  {
    if !a.UmapArtifact? then Failure(NotAReducer(path))
    else if a.umapFitData.None? then Failure(NotFitted(path))
    else Success(transform(a.umap, a.umapFitData.value, points))
  }

  /**
   * The two loads, the transform and `approximate_predict` of
   * `get_cluster_labels`, in the order the script performs them.
   * `approximate_predict` needs the prediction data HDBSCAN keeps only when
   * fit with `prediction_data=True`.
   */
  function Predict(files: map<string, Artifact>, embeddings: seq<Vector>, transform: Transform,
                   approximatePredict: ApproximatePredict): (r: Result<(seq<int>, seq<real>), ClusterError>)
    ensures r.Success? <==>
      && UmapModelFile in files && HdbscanModelFile in files
      && files[UmapModelFile].UmapArtifact? && files[UmapModelFile].umapFitData.Some?
      && files[HdbscanModelFile].HdbscanArtifact? && files[HdbscanModelFile].hdbscanFitData.Some?
      && files[HdbscanModelFile].hdbscan.predictionData
    ensures r.Failure? && HdbscanModelFile in files && files[HdbscanModelFile].HdbscanArtifact?
      && !files[HdbscanModelFile].hdbscan.predictionData
      ==> r.error in {FileNotFound(UmapModelFile), NotAReducer(UmapModelFile), NotFitted(UmapModelFile),
                      NotFitted(HdbscanModelFile), NoPredictionData}
  {
    if UmapModelFile !in files then Failure(FileNotFound(UmapModelFile))
    else if HdbscanModelFile !in files then Failure(FileNotFound(HdbscanModelFile))
    else
      var clusterer := files[HdbscanModelFile];
      match ReducerTransform(files[UmapModelFile], UmapModelFile, embeddings, transform)
      case Failure(e) => Failure(e)
      case Success(reduced) =>
        if !clusterer.HdbscanArtifact? then Failure(NotAClusterer(HdbscanModelFile))
        else if clusterer.hdbscanFitData.None? then Failure(NotFitted(HdbscanModelFile))
        else if !clusterer.hdbscan.predictionData then Failure(NoPredictionData)
        else Success(approximatePredict(clusterer.hdbscan, clusterer.hdbscanFitData.value, reduced))
  }

  /**
   * `get_cluster_labels` as written: both returned lists are taken from
   * `data[0]`, so the "probabilities" are the labels again.
   */
  function GetClusterLabels(files: map<string, Artifact>, embeddings: seq<Vector>, transform: Transform,
                            approximatePredict: ApproximatePredict): (r: Result<(seq<int>, seq<int>), ClusterError>)
    ensures r.Success? ==> r.value.0 == r.value.1
    ensures r.Success? <==> Predict(files, embeddings, transform, approximatePredict).Success?
  {
    match Predict(files, embeddings, transform, approximatePredict)
    case Failure(e) => Failure(e)
    case Success(data) => Success((data.0, data.0))
  }

  /**
   * A noise point's "probability" as written is its label, -1, although the
   * service reports a membership strength in [0, 1] for it.
   */
  lemma ProbabilityIsLabel(files: map<string, Artifact>, embeddings: seq<Vector>, transform: Transform)
    requires Predict(files, embeddings, transform, (c, d, p) => ([Noise], [0.0])).Success?
    ensures var r := GetClusterLabels(files, embeddings, transform, (c, d, p) => ([Noise], [0.0]));
      r.Success? && r.value.1 == [-1] && !(0 <= r.value.1[0] <= 1)
  {
  }

  /** `get_cluster_labels` returning the labels `data[0]` and the strengths `data[1]`. */
  function GetClusterLabelsAndStrengths(files: map<string, Artifact>, embeddings: seq<Vector>, transform: Transform,
                                        approximatePredict: ApproximatePredict)
    : (r: Result<(seq<int>, seq<real>), ClusterError>)
    ensures r.Success? <==> Predict(files, embeddings, transform, approximatePredict).Success?
    ensures r.Success? ==>
      && GetClusterLabels(files, embeddings, transform, approximatePredict) == Success((r.value.0, r.value.0))
      && r.value == approximatePredict(files[HdbscanModelFile].hdbscan, files[HdbscanModelFile].hdbscanFitData.value,
                                       transform(files[UmapModelFile].umap, files[UmapModelFile].umapFitData.value, embeddings))
  {
    match Predict(files, embeddings, transform, approximatePredict)
    case Failure(e) => Failure(e)
    case Success(data) => Success(data)
  }

  /** `cluster_descriptions`. */
  const ClusterDescriptions: map<int, string> := map[
    -1 := "Noise",
    0 := "Wireless, Computing",
    1 := "Logic",
    2 := "Privacy, Security",
    3 := "Theoretical Science",
    4 := "Medical Imaging",
    5 := "AI Images",
    6 := "AI Vision",
    7 := "Quantum Computing",
    8 := "RL, Game Theory",
    9 := "Planning, Control"]

  /** The description table is defined exactly for the labels -1 to 9. */
  lemma DescriptionDomain(cluster: int)
    ensures cluster in ClusterDescriptions <==> -1 <= cluster <= 9
  {
  }

  /**
   * One `plt.scatter` call: the label, its legend text, its colour (None is
   * matplotlib's default cycle) and which points it draws. `labels == label`
   * compares a Python list with a NumPy integer; the list declines the
   * comparison and NumPy broadcasts it, giving one boolean per point.
   */
  datatype Series = Series(cluster: int, description: string, colour: Option<string>, mask: seq<bool>)

  const NoiseColour := "lightgrey"

  function Mask(labels: seq<int>, cluster: int): (mask: seq<bool>)
    ensures |mask| == |labels|
    ensures forall k :: 0 <= k < |labels| ==> (mask[k] <==> labels[k] == cluster)
  {
    seq(|labels|, k requires 0 <= k < |labels| => labels[k] == cluster)
  }

  /** The body of the `for label in unique_labels` loop, one series per label, stopping at a KeyError. */
  function PlotSeries(uniqueLabels: seq<int>, labels: seq<int>): (r: Result<seq<Series>, ClusterError>)
    ensures r.Success? <==> forall i :: 0 <= i < |uniqueLabels| ==> uniqueLabels[i] in ClusterDescriptions
    ensures r.Failure? ==> exists i :: (
      && 0 <= i < |uniqueLabels|
      && r.error == UnknownLabel(uniqueLabels[i]) && uniqueLabels[i] !in ClusterDescriptions
      && forall j :: 0 <= j < i ==> uniqueLabels[j] in ClusterDescriptions)
    ensures r.Success? ==> |r.value| == |uniqueLabels| && forall i :: 0 <= i < |uniqueLabels| ==>
      && r.value[i].cluster == uniqueLabels[i]
      && r.value[i].description == ClusterDescriptions[uniqueLabels[i]]
      && (r.value[i].colour == Some(NoiseColour) <==> uniqueLabels[i] == Noise)
      && (r.value[i].colour.None? <==> uniqueLabels[i] != Noise)
      && |r.value[i].mask| == |labels|
      && forall k :: 0 <= k < |labels| ==> (r.value[i].mask[k] <==> labels[k] == uniqueLabels[i])
  {
    if |uniqueLabels| == 0 then Success([])
    else
      var cluster := uniqueLabels[0];
      if cluster !in ClusterDescriptions then Failure(UnknownLabel(cluster))
      else
        var colour := if cluster == Noise then Some(NoiseColour) else None;
        match PlotSeries(uniqueLabels[1..], labels)
        case Failure(e) => Failure(e)
        case Success(rest) => Success([Series(cluster, ClusterDescriptions[cluster], colour, Mask(labels, cluster))] + rest)
  }

  /** The plot `plot_2d_clusters` saves: its series and the two counts in its title. */
  datatype Plot = Plot(series: seq<Series>, observations: nat, noise: nat)

  /** `plot_2d_clusters`, up to the rendering. */
  function PlotClusters(files: map<string, Artifact>, embeddings: seq<Vector>, labels: seq<int>, transform: Transform)
    : (r: Result<Plot, ClusterError>)
    ensures r.Success? ==> r.value.observations == |labels| && r.value.noise == CountNoise(labels)
    ensures r.Success? ==> r.value.noise <= r.value.observations
    ensures r.Success? ==> PlotSeries(Unique(labels), labels) == Success(r.value.series)
    ensures r.Failure? <==>
      || Umap2dModelFile !in files
      || ReducerTransform(files[Umap2dModelFile], Umap2dModelFile, embeddings, transform).Failure?
      || PlotSeries(Unique(labels), labels).Failure?
  {
    if Umap2dModelFile !in files then Failure(FileNotFound(Umap2dModelFile))
    else match ReducerTransform(files[Umap2dModelFile], Umap2dModelFile, embeddings, transform)
      case Failure(e) => Failure(e)
      case Success(_) =>
        match PlotSeries(Unique(labels), labels)
        case Failure(e) => Failure(e)
        case Success(series) => Success(Plot(series, |labels|, CountNoise(labels)))
  }

  /** The plot fails with a KeyError exactly when some point has a label outside -1..9. */
  lemma PlotSeriesFailsOutsideTable(labels: seq<int>)
    ensures PlotSeries(Unique(labels), labels).Failure? <==> exists k :: 0 <= k < |labels| && !(-1 <= labels[k] <= 9)
  {
    var u := Unique(labels);
    assert (forall i :: 0 <= i < |u| ==> u[i] in ClusterDescriptions) <==> (forall k :: 0 <= k < |labels| ==> -1 <= labels[k] <= 9) by {
      UniqueInTable(labels);
    }
  }

  /** Every distinct label has a description exactly when every label lies in -1..9. */
  lemma UniqueInTable(labels: seq<int>)
    ensures (forall i :: 0 <= i < |Unique(labels)| ==> Unique(labels)[i] in ClusterDescriptions) ==>
      (forall k :: 0 <= k < |labels| ==> -1 <= labels[k] <= 9)
    ensures (forall k :: 0 <= k < |labels| ==> -1 <= labels[k] <= 9) ==>
      (forall i :: 0 <= i < |Unique(labels)| ==> Unique(labels)[i] in ClusterDescriptions)
  {
    var u := Unique(labels);
    if exists k :: 0 <= k < |labels| && !(-1 <= labels[k] <= 9) {
      var k :| 0 <= k < |labels| && !(-1 <= labels[k] <= 9);
      assert labels[k] in u;
      var i :| 0 <= i < |u| && u[i] == labels[k];
      DescriptionDomain(u[i]);
      assert u[i] !in ClusterDescriptions;
      assert !(forall i :: 0 <= i < |u| ==> u[i] in ClusterDescriptions);
      assert !(forall k :: 0 <= k < |labels| ==> -1 <= labels[k] <= 9);
    } else {
      forall i | 0 <= i < |u|
        ensures u[i] in ClusterDescriptions
      {
        assert u[i] in labels;
        DescriptionDomain(u[i]);
      }
    }
  }

  /** When the plot succeeds, every point is drawn by exactly one series. */
  lemma SeriesPartitionPoints(labels: seq<int>, k: nat)
    requires PlotSeries(Unique(labels), labels).Success? && k < |labels|
    ensures var series := PlotSeries(Unique(labels), labels).value;
      && (exists i :: 0 <= i < |series| && series[i].mask[k])
      && forall i, j :: 0 <= i < |series| && 0 <= j < |series| && series[i].mask[k] && series[j].mask[k] ==> i == j
  {
    var u := Unique(labels);
    var series := PlotSeries(u, labels).value;
    assert labels[k] in u;
    var i :| 0 <= i < |u| && u[i] == labels[k];
    assert series[i].mask[k];
    forall i, j | 0 <= i < |series| && 0 <= j < |series| && series[i].mask[k] && series[j].mask[k]
      ensures i == j
    {
      assert u[i] == labels[k] == u[j];
    }
  }

  /** `[d["embedding"] for d in arxiv]`: KeyError at the first record without one. */
  function ExtractEmbeddings(records: seq<Record>): (r: Result<seq<Vector>, ClusterError>)
    ensures r.Success? <==> forall k :: 0 <= k < |records| ==> records[k].embedding.Some?
    ensures r.Success? ==> (
      && |r.value| == |records|
      && forall k :: 0 <= k < |records| ==> records[k].embedding == Some(r.value[k]))
    ensures r.Failure? ==> exists k :: (
      && 0 <= k < |records| && r.error == MissingEmbedding(k)
      && records[k].embedding.None? && forall j :: 0 <= j < k ==> records[j].embedding.Some?)
  {
    if |records| == 0 then Success([])
    else if records[0].embedding.None? then Failure(MissingEmbedding(0))
    else match ExtractEmbeddings(records[1..])
      case Success(rest) => Success([records[0].embedding.value] + rest)
      case Failure(e) =>
        Failure(MissingEmbedding(e.index + 1))
  }

  /**
   * `daily_processing` as written: the chosen file's embeddings, their labels
   * from `get_cluster_labels` (whose second list it ignores), the plot.
   */
  function DailyProcessing(filename: Option<string>, listing: seq<Files.DirEntry>, read: string -> seq<Record>,
                           files: map<string, Artifact>, transform: Transform,
                           approximatePredict: ApproximatePredict): (r: Result<Plot, ClusterError>)
    ensures filename.None? && Files.GetFileList(Files.DataDirectory, listing) == [] ==> r == Failure(NoDataFile)
    ensures r.Success? ==>
      && Files.ChosenFile(filename, listing).Some?
      && ExtractEmbeddings(read(Files.ChosenFile(filename, listing).value)).Success?
      && Predict(files, ExtractEmbeddings(read(Files.ChosenFile(filename, listing).value)).value, transform,
                 approximatePredict).Success?
      && r.value.observations == |Predict(files, ExtractEmbeddings(read(Files.ChosenFile(filename, listing).value)).value,
                                          transform, approximatePredict).value.0|
    ensures r.Success? ==>
      var embeddings := ExtractEmbeddings(read(Files.ChosenFile(filename, listing).value)).value;
      r == PlotClusters(files, embeddings, Predict(files, embeddings, transform, approximatePredict).value.0, transform)
    ensures var path := Files.ChosenFile(filename, listing);
      r.Failure? <==>
        || path.None?
        || ExtractEmbeddings(read(path.value)).Failure?
        || Predict(files, ExtractEmbeddings(read(path.value)).value, transform, approximatePredict).Failure?
        || PlotClusters(files, ExtractEmbeddings(read(path.value)).value,
                        Predict(files, ExtractEmbeddings(read(path.value)).value, transform, approximatePredict).value.0,
                        transform).Failure?
  {
    var path := Files.ChosenFile(filename, listing);
    if path.None? then Failure(NoDataFile)
    else match ExtractEmbeddings(read(path.value))
      case Failure(e) => Failure(e)
      case Success(embeddings) =>
        match GetClusterLabels(files, embeddings, transform, approximatePredict)
        case Failure(e) => Failure(e)
        case Success(data) => PlotClusters(files, embeddings, data.0, transform)
  }

  // Across the scripts

  /**
   * The clusterer `train_models` dumps was fit with `prediction_data=False`,
   * so labelling new records with it is refused, whatever the embeddings.
   */
  lemma TrainedClustererRefused(files: map<string, Artifact>, trainingData: seq<Vector>,
                                fitTransform: FitTransform, embeddings: seq<Vector>,
                                transform: Transform, approximatePredict: ApproximatePredict)
    ensures Predict(Training.TrainedModels(files, trainingData, fitTransform), embeddings, transform,
                    approximatePredict) == Failure(NoPredictionData)
  {
    Training.TrainedModelsWiring(files, trainingData, fitTransform);
    LoadsTrainedPaths();
  }

  /**
   * When a chunk of the embedding step exhausted its retries on records that
   * had no embedding, the clustering step cannot read the file's embeddings;
   * when every chunk succeeded it reads one vector per record, in order.
   */
  lemma SkippedChunkBreaksExtraction(records: seq<Record>, embed: GeminiEmbeddings.Embedder)
    requires GeminiEmbeddings.OnePerText(embed)
    requires forall k :: 0 <= k < |records| ==> records[k].embedding.None?
    ensures var run := GeminiEmbeddings.Run(Chunks(records), GeminiEmbeddings.DefaultTaskType,
                                            GeminiEmbeddings.DefaultMaxRetries, embed, 0);
      var r := ExtractEmbeddings(GeminiEmbeddings.Attached(records, run.embeddings));
      && (r.Success? <==> GeminiEmbeddings.AllSucceeded(run))
      && (r.Success? ==> r.value == run.embeddings)
  {
    var run := GeminiEmbeddings.Run(Chunks(records), GeminiEmbeddings.DefaultTaskType,
                                    GeminiEmbeddings.DefaultMaxRetries, embed, 0);
    assert |run.embeddings| <= |records| && (|run.embeddings| == |records| <==> GeminiEmbeddings.AllSucceeded(run)) by {
      GeminiEmbeddings.LengthIffAllSucceeded(GeminiEmbeddings.Abstracts(records), GeminiEmbeddings.DefaultChunkSize,
                                             GeminiEmbeddings.DefaultTaskType, GeminiEmbeddings.DefaultMaxRetries, embed);
    }
    ExtractAttached(records, run.embeddings);
  }

  /**
   * Attaching vectors to records that had none: the embeddings can be read
   * back exactly when there was one vector per record, and then they are
   * those vectors in order.
   */
  lemma ExtractAttached(records: seq<Record>, embeddings: seq<Vector>)
    requires forall k :: 0 <= k < |records| ==> records[k].embedding.None?
    requires |embeddings| <= |records|
    ensures var r := ExtractEmbeddings(GeminiEmbeddings.Attached(records, embeddings));
      && (r.Success? <==> |embeddings| == |records|)
      && (r.Success? ==> r.value == embeddings)
  {
    var attached := GeminiEmbeddings.Attached(records, embeddings);
    if |embeddings| < |records| {
      GeminiEmbeddings.AttachedAt(records, embeddings, |records| - 1);
    } else {
      forall k | 0 <= k < |records|
        ensures attached[k].embedding == Some(embeddings[k])
      {
        GeminiEmbeddings.AttachedAt(records, embeddings, k);
      }
    }
  }

  /** The chunks of the daily abstracts at the default chunk size. */
  function Chunks(records: seq<Record>): seq<seq<string>>
  {
    GeminiEmbeddings.Chunks(GeminiEmbeddings.Abstracts(records), GeminiEmbeddings.DefaultChunkSize)
  }
}

=== FILE: files.dfy ===
/**
 * Directory listings: `get_file_list` (scripts/0_train_models.py) and
 * `get_most_recent_file` (written twice, identically, in
 * scripts/2_gemini_daily_embeddings.py and scripts/3_cluster_daily_articles.py).
 * The directory is given as its listing: each entry with its name, whether
 * it is a regular file, and its ctime.
 */
module Files {
  import opened Wrappers

  datatype DirEntry = DirEntry(name: string, isFile: bool, ctime: real)

  /** `os.path.join(directory, name)` for a relative name. */
  function PathJoin(directory: string, name: string): (path: string)
    ensures |path| >= |name| && path[|path| - |name|..] == name
  {
    if directory == "" || directory[|directory| - 1] == '/' then directory + name
    else directory + "/" + name
  }

  /** The regular files of a listing, joined onto the directory, in listing order. */
  function GetFileList(directory: string, listing: seq<DirEntry>): (files: seq<string>)
    ensures |files| <= |listing|
  {
    if |listing| == 0 then []
    else
      var rest := GetFileList(directory, listing[1..]);
      if listing[0].isFile then [PathJoin(directory, listing[0].name)] + rest else rest
  }

  /** Listing more entries appends their files after the earlier ones: the order is the listing order. */
  lemma {:induction false} GetFileListAppend(directory: string, a: seq<DirEntry>, b: seq<DirEntry>)
    ensures GetFileList(directory, a + b) == GetFileList(directory, a) + GetFileList(directory, b)
  {
    if |a| > 0 {
      assert (a + b)[1..] == a[1..] + b;
      GetFileListAppend(directory, a[1..], b);
    } else {
      assert a + b == b;
    }
  }

  /** A path is in the file list exactly when some regular-file entry joins to it. */
  lemma {:induction false} GetFileListMembership(directory: string, listing: seq<DirEntry>, path: string)
    ensures path in GetFileList(directory, listing) <==>
      exists k :: 0 <= k < |listing| && listing[k].isFile && path == PathJoin(directory, listing[k].name)
  {
    if |listing| > 0 {
      GetFileListMembership(directory, listing[1..], path);
      if path in GetFileList(directory, listing[1..]) {
        var k :| 0 <= k < |listing[1..]| && listing[1..][k].isFile && path == PathJoin(directory, listing[1..][k].name);
        assert listing[k + 1] == listing[1..][k];
      }
      if exists k :: 0 <= k < |listing| && listing[k].isFile && path == PathJoin(directory, listing[k].name) {
        var k :| 0 <= k < |listing| && listing[k].isFile && path == PathJoin(directory, listing[k].name);
        if k > 0 {
          assert listing[1..][k - 1] == listing[k];
        }
      }
    }
  }

  /**
   * Entry `k` is what `sorted(file_ctimes, key=ctime, reverse=True)[0]`
   * yields: a regular file with the largest ctime, and, the sort being
   * stable, the first such file in listing order.
   */
  predicate IsMostRecent(listing: seq<DirEntry>, k: nat) {
    && k < |listing|
    && listing[k].isFile
    && (forall j :: 0 <= j < |listing| && listing[j].isFile ==> listing[j].ctime <= listing[k].ctime)
    && (forall j :: 0 <= j < k && listing[j].isFile ==> listing[j].ctime < listing[k].ctime)
  }

  /** The index of the most recent regular file, or None when the listing holds no regular file. */
  function MostRecentIndex(listing: seq<DirEntry>): (r: Option<nat>)
    ensures r.None? <==> forall j :: 0 <= j < |listing| ==> !listing[j].isFile
    ensures r.Some? ==> IsMostRecent(listing, r.value)
  {
    if |listing| == 0 then None
    else
      match MostRecentIndex(listing[1..])
      case None => if listing[0].isFile then Some(0) else None
      case Some(k) =>
        if listing[0].isFile && listing[0].ctime >= listing[k + 1].ctime then Some(0) else Some(k + 1)
  }

  /** The most recent file of a listing is unique: `IsMostRecent` pins down one index. */
  lemma MostRecentUnique(listing: seq<DirEntry>, k: nat, k': nat)
    requires IsMostRecent(listing, k) && IsMostRecent(listing, k')
    ensures k == k'
  {
  }

  /**
   * `get_most_recent_file`: None when the listing holds no regular file;
   * otherwise the joined path of the regular file with the largest ctime,
   * the first in listing order among ties.
   */
  function GetMostRecentFile(directory: string, listing: seq<DirEntry>): (r: Option<string>)
    ensures r.None? <==> GetFileList(directory, listing) == []
    ensures r.Some? ==> exists k: nat :: IsMostRecent(listing, k) && r.value == PathJoin(directory, listing[k].name)
    ensures r.Some? ==> r.value in GetFileList(directory, listing)
  {
    match MostRecentIndex(listing)
    case None =>
      NoFilesNoList(directory, listing);
      None
    case Some(k) =>
      GetFileListMembership(directory, listing, PathJoin(directory, listing[k].name));
      Some(PathJoin(directory, listing[k].name))
  }

  /** The directory the daily scripts read their data files from. */
  const DataDirectory := "../data"

  /**
   * `if filename is None: filename = get_most_recent_file("../data")`, as the
   * embedding and clustering drivers both begin: the given file, else the most
   * recent regular file of the data directory, else None.
   */
  function ChosenFile(filename: Option<string>, listing: seq<DirEntry>): (r: Option<string>)
    ensures filename.Some? ==> r == filename
    ensures r.None? <==> filename.None? && GetFileList(DataDirectory, listing) == []
    ensures filename.None? ==> r == GetMostRecentFile(DataDirectory, listing)
    ensures filename.None? && r.Some? ==> r.value in GetFileList(DataDirectory, listing)
  {
    if filename.Some? then filename else GetMostRecentFile(DataDirectory, listing)
  }

  lemma {:induction false} NoFilesNoList(directory: string, listing: seq<DirEntry>)
    ensures GetFileList(directory, listing) == [] <==> forall j :: 0 <= j < |listing| ==> !listing[j].isFile
  {
    if |listing| > 0 {
      NoFilesNoList(directory, listing[1..]);
      assert forall j :: 1 <= j < |listing| ==> listing[j] == listing[1..][j - 1];
    }
  }
}

=== FILE: gemini_embeddings.dfy ===
/**
 * scripts/2_gemini_daily_embeddings.py: embedding the day's abstracts in
 * chunks with a bounded number of attempts per chunk, and attaching the
 * vectors to the records with `zip`.
 *
 * The embedding service is a parameter: `embed(request, n)` is the answer to
 * the `n`-th call of the run (counting from 0), None when the call raises.
 */
module GeminiEmbeddings {
  import opened Wrappers
  import opened Records
  import Files

  /** The name stamped into each record's `embedding_model` key. */
  const GeminiEmbeddingModel := "gemini-1.0-pro-001"
  /** The model named in each `embed_content` call. */
  const EmbedContentModel := "models/embedding-001"
  const DefaultTaskType := "clustering"
  const DefaultChunkSize := 100
  const DefaultMaxRetries := 3

  datatype EmbedRequest = EmbedRequest(model: string, content: seq<string>, taskType: string)

  type Embedder = (EmbedRequest, nat) -> Option<seq<Vector>>

  /** `range(0, n, 0)` raises ValueError. */
  datatype RangeError = ZeroStep

  /** What happened to one chunk: the vectors of its successful call, if any, and how many calls it made. */
  datatype ChunkOutcome = ChunkOutcome(result: Option<seq<Vector>>, calls: nat)

  /** The returned `embeddings` list, with the per-chunk outcomes the retry messages report. */
  datatype EmbedRun = EmbedRun(embeddings: seq<Vector>, outcomes: seq<ChunkOutcome>)

  function Flatten<T>(xs: seq<seq<T>>): seq<T>
  {
    if |xs| == 0 then [] else xs[0] + Flatten(xs[1..])
  }

  function Max0(n: int): nat
  {
    if n > 0 then n else 0
  }

  /**
   * The slices `abstracts[i : i + size]` for `i` in `range(0, len, size)`:
   * none is empty, none is longer than `size`, and all but the last have
   * exactly `size` elements.
   */
  function Chunks(s: seq<string>, size: nat): (chunks: seq<seq<string>>)
    requires size > 0
    ensures forall c :: 0 <= c < |chunks| ==> 0 < |chunks[c]| <= size
    ensures forall c :: 0 <= c < |chunks| - 1 ==> |chunks[c]| == size
    decreases |s|
  {
    if |s| == 0 then []
    else if |s| <= size then [s]
    else [s[..size]] + Chunks(s[size..], size)
  }

  /** The chunks concatenate back to the input: nothing is dropped, repeated or reordered. */
  lemma {:induction false} ChunksConcat(s: seq<string>, size: nat)
    requires size > 0
    ensures Flatten(Chunks(s, size)) == s
    decreases |s|
  {
    if |s| > size {
      ChunksConcat(s[size..], size);
      assert s == s[..size] + s[size..];
    } else if |s| > 0 {
      assert Flatten(Chunks(s, size)) == s + Flatten<string>([]);
    }
  }

  function Min(a: int, b: int): int
  {
    if a <= b then a else b
  }

  lemma SliceOfSuffix<T>(s: seq<T>, k: nat, lo: nat, hi: nat)
    requires k <= |s| && lo <= hi <= |s| - k
    ensures s[k..][lo..hi] == s[lo + k..hi + k]
  {
  }

  /** `c * size`, the position where chunk `c` starts, counted up one chunk at a time. */
  function Offset(c: nat, size: nat): nat
  {
    if c == 0 then 0 else Offset(c - 1, size) + size
  }

  /** The chunk offsets are the multiples of the chunk size, as `range(0, len, chunk_size)` yields them. */
  lemma {:induction false} OffsetIsProduct(c: nat, size: nat)
    ensures Offset(c, size) == c * size
  {
    if c > 0 {
      OffsetIsProduct(c - 1, size);
      MulStep(c, size);
    }
  }

  /** Chunk `c` is the slice starting at `c * size`, cut at the end of the input. */
  lemma {:induction false} ChunkSlices(s: seq<string>, size: nat, c: nat)
    requires size > 0 && c < |Chunks(s, size)|
    ensures Offset(c, size) < |s|
    ensures Chunks(s, size)[c] == s[Offset(c, size)..Min(Offset(c + 1, size), |s|)]
    decreases |s|
  {
    if c > 0 {
      var t := s[size..];
      assert |s| > size && Chunks(s, size)[c] == Chunks(t, size)[c - 1] by {
        assert Chunks(s, size) == [s[..size]] + Chunks(t, size);
      }
      ChunkSlices(t, size, c - 1);
      var lo := Offset(c - 1, size);
      var hi := Min(Offset(c, size), |t|);
      assert lo + size == Offset(c, size);
      assert hi + size == Min(Offset(c + 1, size), |s|);
      SliceOfSuffix(s, size, lo, hi);
    }
  }

  function Request(chunk: seq<string>, taskType: string): EmbedRequest
  {
    EmbedRequest(EmbedContentModel, chunk, taskType)
  }

  /**
   * The `while retries < max_retries` loop for one chunk, from the state in
   * which `retries` calls have failed: the first successful call among the
   * remaining attempts, or None once `max_retries` calls have failed.
   */
  function TryChunk(chunk: seq<string>, taskType: string, maxRetries: int, embed: Embedder,
                    firstCall: nat, retries: nat): (o: ChunkOutcome)
    requires retries <= Max0(maxRetries)
    ensures retries <= o.calls <= Max0(maxRetries)
    ensures o.result.None? ==> o.calls == Max0(maxRetries)
    ensures o.result.Some? ==> retries < o.calls && o.result == embed(Request(chunk, taskType), firstCall + o.calls - 1)
    decreases Max0(maxRetries) - retries
  {
    if retries >= maxRetries then ChunkOutcome(None, retries)
    else
      match embed(Request(chunk, taskType), firstCall + retries)
      case Some(v) => ChunkOutcome(Some(v), retries + 1)
      case None => TryChunk(chunk, taskType, maxRetries, embed, firstCall, retries + 1)
  }

  /** Every call of a chunk before its last one failed, and so did the last one when the chunk got nothing. */
  lemma {:induction false} FailedCalls(chunk: seq<string>, taskType: string, maxRetries: int, embed: Embedder,
                                       firstCall: nat, retries: nat)
    requires retries <= Max0(maxRetries)
    ensures var o := TryChunk(chunk, taskType, maxRetries, embed, firstCall, retries);
      forall n :: firstCall + retries <= n < firstCall + (if o.result.Some? then o.calls - 1 else o.calls) ==>
        embed(Request(chunk, taskType), n).None?
    decreases Max0(maxRetries) - retries
  {
    if retries < maxRetries && embed(Request(chunk, taskType), firstCall + retries).None? {
      FailedCalls(chunk, taskType, maxRetries, embed, firstCall, retries + 1);
    }
  }

  /** What a chunk adds to the result list: its vectors, or nothing when all its attempts failed. */
  function Contribution(o: ChunkOutcome): seq<Vector>
  {
    if o.result.Some? then o.result.value else []
  }

  /** The loop over the chunks, starting at call number `firstCall`. */
  function Run(chunks: seq<seq<string>>, taskType: string, maxRetries: int, embed: Embedder,
               firstCall: nat): (run: EmbedRun)
    ensures |run.outcomes| == |chunks|
  {
    if |chunks| == 0 then EmbedRun([], [])
    else
      var o := TryChunk(chunks[0], taskType, maxRetries, embed, firstCall, 0);
      var rest := Run(chunks[1..], taskType, maxRetries, embed, firstCall + o.calls);
      EmbedRun(Contribution(o) + rest.embeddings, [o] + rest.outcomes)
  }

  /** `get_embeddings_from_gemini_by_chunk` as a function of its arguments and the service. */
  function EmbedByChunk(abstracts: seq<string>, taskType: string, chunkSize: int, maxRetries: int,
                        embed: Embedder): (r: Result<EmbedRun, RangeError>)
    ensures r.Failure? <==> chunkSize == 0
    ensures chunkSize < 0 ==> r == Success(EmbedRun([], []))
    ensures chunkSize > 0 ==> r.Success? && |r.value.outcomes| == |Chunks(abstracts, chunkSize)|
  {
    if chunkSize == 0 then Failure(ZeroStep)
    else if chunkSize < 0 then Success(EmbedRun([], []))
    else Success(Run(Chunks(abstracts, chunkSize), taskType, maxRetries, embed, 0))
  }

  function Drop(s: seq<string>, i: nat): seq<string>
  {
    if i <= |s| then s[i..] else []
  }

  lemma ConcatAssoc<T>(a: seq<T>, b: seq<T>, c: seq<T>)
    ensures a + (b + c) == (a + b) + c
  {
  }

  lemma RunCons(chunk: seq<string>, more: seq<seq<string>>, taskType: string, maxRetries: int,
                embed: Embedder, firstCall: nat, o: ChunkOutcome, nextCall: nat)
    requires o == TryChunk(chunk, taskType, maxRetries, embed, firstCall, 0) && nextCall == firstCall + o.calls
    ensures Run([chunk] + more, taskType, maxRetries, embed, firstCall) ==
      EmbedRun(Contribution(o) + Run(more, taskType, maxRetries, embed, nextCall).embeddings,
               [o] + Run(more, taskType, maxRetries, embed, nextCall).outcomes)
  {
    assert ([chunk] + more)[1..] == more;
  }

  /** Taking the chunk at `i` leaves the chunks of what follows it, from `next`. */
  lemma ChunksStep(s: seq<string>, i: nat, size: nat, next: nat)
    requires size > 0 && i < |s| && next == i + size
    ensures Chunks(Drop(s, i), size) == [s[i..Min(next, |s|)]] + Chunks(Drop(s, next), size)
  {
    var d := s[i..];
    assert Drop(s, i) == d;
    if |d| > size {
      assert d[..size] == s[i..next];
      assert d[size..] == Drop(s, next);
    } else {
      assert Min(next, |s|) == |s|;
      assert s[i..|s|] == d;
      assert Drop(s, next) == [];
    }
  }

  /** One turn of the chunk loop: the chunk at `i`, then the chunks after it from the next call number. */
  lemma RunStep(s: seq<string>, i: nat, size: nat, taskType: string, maxRetries: int, embed: Embedder,
                firstCall: nat, o: ChunkOutcome, next: nat, nextCall: nat)
    requires size > 0 && i < |s| && next == i + size && nextCall == firstCall + o.calls
    requires o == TryChunk(s[i..Min(next, |s|)], taskType, maxRetries, embed, firstCall, 0)
    ensures Run(Chunks(Drop(s, i), size), taskType, maxRetries, embed, firstCall) ==
      EmbedRun(Contribution(o) + Run(Chunks(Drop(s, next), size), taskType, maxRetries, embed, nextCall).embeddings,
               [o] + Run(Chunks(Drop(s, next), size), taskType, maxRetries, embed, nextCall).outcomes)
  {
    ChunksStep(s, i, size, next);
    RunCons(s[i..Min(next, |s|)], Chunks(Drop(s, next), size), taskType, maxRetries, embed, firstCall, o, nextCall);
  }

  /** What the loop has gathered so far, followed by what the remaining chunks add. */
  function Joined(embeddings: seq<Vector>, outcomes: seq<ChunkOutcome>, rest: EmbedRun): EmbedRun
  {
    EmbedRun(embeddings + rest.embeddings, outcomes + rest.outcomes)
  }

  /** One turn of the chunk loop moves the chunk at `i` from the remaining run into the gathered lists. */
  lemma LoopStep(s: seq<string>, i: nat, size: nat, taskType: string, maxRetries: int, embed: Embedder,
                 firstCall: nat, o: ChunkOutcome, embeddings: seq<Vector>, outcomes: seq<ChunkOutcome>,
                 total: EmbedRun, next: nat, nextCall: nat)
    requires size > 0 && i < |s| && next == i + size && nextCall == firstCall + o.calls
    requires o == TryChunk(s[i..Min(next, |s|)], taskType, maxRetries, embed, firstCall, 0)
    requires total == Joined(embeddings, outcomes, Run(Chunks(Drop(s, i), size), taskType, maxRetries, embed, firstCall))
    ensures total == Joined(embeddings + Contribution(o), outcomes + [o],
                            Run(Chunks(Drop(s, next), size), taskType, maxRetries, embed, nextCall))
  {
    var after := Run(Chunks(Drop(s, next), size), taskType, maxRetries, embed, nextCall);
    RunStep(s, i, size, taskType, maxRetries, embed, firstCall, o, next, nextCall);
    ConcatAssoc(embeddings, Contribution(o), after.embeddings);
    ConcatAssoc(outcomes, [o], after.outcomes);
  }

  /**
   * The inner `while retries < max_retries` loop of
   * `get_embeddings_from_gemini_by_chunk` for one chunk, whose first call is
   * call number `firstCall`.
   */
  method EmbedChunk(chunk: seq<string>, taskType: string, maxRetries: int, embed: Embedder, firstCall: nat)
    returns (outcome: ChunkOutcome)
    ensures outcome == TryChunk(chunk, taskType, maxRetries, embed, firstCall, 0)
  {
    var retries := 0;
    while retries < maxRetries
      invariant 0 <= retries <= Max0(maxRetries)
      invariant TryChunk(chunk, taskType, maxRetries, embed, firstCall, 0) ==
        TryChunk(chunk, taskType, maxRetries, embed, firstCall, retries)
      decreases maxRetries - retries
    {
      var response := embed(Request(chunk, taskType), firstCall + retries);
      if response.Some? {
        return ChunkOutcome(response, retries + 1);
      }
      retries := retries + 1;
    }
    return ChunkOutcome(None, retries);
  }

  /**
   * `get_embeddings_from_gemini_by_chunk`: a `for` loop over the chunk starts
   * that extends the result with the vectors of each chunk's first successful
   * call.
   */
  method GetEmbeddingsByChunk(abstracts: seq<string>, taskType: string, chunkSize: int, maxRetries: int,
                              embed: Embedder) returns (r: Result<EmbedRun, RangeError>)
    ensures r.Failure? <==> chunkSize == 0
    ensures r == EmbedByChunk(abstracts, taskType, chunkSize, maxRetries, embed)
  {
    if chunkSize == 0 {
      return Failure(ZeroStep);
    }
    if chunkSize < 0 {
      return Success(EmbedRun([], []));
    }
    var size: nat := chunkSize;
    var embeddings: seq<Vector> := [];
    var outcomes: seq<ChunkOutcome> := [];
    var callCount: nat := 0;
    ghost var total := Run(Chunks(abstracts, size), taskType, maxRetries, embed, 0);
    var i: nat := 0;
    assert Drop(abstracts, 0) == abstracts;
    while i < |abstracts|
      invariant total == Joined(embeddings, outcomes, Run(Chunks(Drop(abstracts, i), size), taskType, maxRetries, embed, callCount))
      decreases |abstracts| - i
    {
      var next: nat := i + size;
      var chunk := abstracts[i..Min(next, |abstracts|)];
      var outcome := EmbedChunk(chunk, taskType, maxRetries, embed, callCount);
      var nextCall: nat := callCount + outcome.calls;
      ghost var after := Run(Chunks(Drop(abstracts, next), size), taskType, maxRetries, embed, nextCall);
      LoopStep(abstracts, i, size, taskType, maxRetries, embed, callCount, outcome, embeddings, outcomes, total,
               next, nextCall);
      ghost var gathered := embeddings + Contribution(outcome);
      if outcome.result.Some? {
        embeddings := embeddings + outcome.result.value;
      }
      assert embeddings == gathered;
      outcomes := outcomes + [outcome];
      assert total == Joined(embeddings, outcomes, after);
      callCount := nextCall;
      i := next;
    }
    assert Drop(abstracts, i) == [];
    assert embeddings + [] == embeddings && outcomes + [] == outcomes;
    return Success(EmbedRun(embeddings, outcomes));
  }

  // Properties of the chunk loop

  /** The number of service calls recorded in `outcomes`. */
  function Calls(outcomes: seq<ChunkOutcome>): nat
  {
    if |outcomes| == 0 then 0 else outcomes[0].calls + Calls(outcomes[1..])
  }

  /** The vector lists the chunks add to the result, chunk by chunk. */
  function Contributions(outcomes: seq<ChunkOutcome>): (parts: seq<seq<Vector>>)
    ensures |parts| == |outcomes|
    ensures forall c :: 0 <= c < |outcomes| ==> parts[c] == Contribution(outcomes[c])
  {
    if |outcomes| == 0 then [] else [Contribution(outcomes[0])] + Contributions(outcomes[1..])
  }

  /**
   * Chunk `c` is tried from the call number that follows all calls of the
   * chunks before it: the retry counter starts afresh at 0 for each chunk.
   */
  lemma RunOutcomeAt(chunks: seq<seq<string>>, taskType: string, maxRetries: int,
                     embed: Embedder, firstCall: nat, c: nat)
    requires c < |chunks|
    ensures var run := Run(chunks, taskType, maxRetries, embed, firstCall);
      run.outcomes[c] == TryChunk(chunks[c], taskType, maxRetries, embed, firstCall + Calls(run.outcomes[..c]), 0)
  {
    RunChained(chunks, taskType, maxRetries, embed, firstCall);
    ChainedAt(chunks, taskType, maxRetries, embed, firstCall, Run(chunks, taskType, maxRetries, embed, firstCall).outcomes, c);
  }

  /**
   * `outcomes` records one try per chunk, each chunk's tries starting at the
   * call after the previous chunk's last.
   */
  ghost predicate Chained(chunks: seq<seq<string>>, taskType: string, maxRetries: int, embed: Embedder,
                          firstCall: nat, outcomes: seq<ChunkOutcome>)
    decreases |chunks|
  {
    |outcomes| == |chunks| &&
    (|chunks| > 0 ==>
      && outcomes[0] == TryChunk(chunks[0], taskType, maxRetries, embed, firstCall, 0)
      && Chained(chunks[1..], taskType, maxRetries, embed, firstCall + outcomes[0].calls, outcomes[1..]))
  }

  lemma {:induction false} RunChained(chunks: seq<seq<string>>, taskType: string, maxRetries: int,
                                      embed: Embedder, firstCall: nat)
    ensures Chained(chunks, taskType, maxRetries, embed, firstCall, Run(chunks, taskType, maxRetries, embed, firstCall).outcomes)
    decreases |chunks|
  {
    if |chunks| > 0 {
      var o := TryChunk(chunks[0], taskType, maxRetries, embed, firstCall, 0);
      var nextCall := firstCall + o.calls;
      var rest := Run(chunks[1..], taskType, maxRetries, embed, nextCall);
      var outcomes := Run(chunks, taskType, maxRetries, embed, firstCall).outcomes;
      assert outcomes == [o] + rest.outcomes by {
        assert chunks == [chunks[0]] + chunks[1..];
        RunCons(chunks[0], chunks[1..], taskType, maxRetries, embed, firstCall, o, nextCall);
      }
      RunChained(chunks[1..], taskType, maxRetries, embed, nextCall);
      assert outcomes[1..] == rest.outcomes;
    }
  }

  lemma {:induction false} ChainedAt(chunks: seq<seq<string>>, taskType: string, maxRetries: int,
                                     embed: Embedder, firstCall: nat, outcomes: seq<ChunkOutcome>, c: nat)
    requires Chained(chunks, taskType, maxRetries, embed, firstCall, outcomes) && c < |chunks|
    ensures outcomes[c] == TryChunk(chunks[c], taskType, maxRetries, embed, firstCall + Calls(outcomes[..c]), 0)
    decreases c
  {
    var call := firstCall + Calls(outcomes[..c]);
    if c == 0 {
      assert call == firstCall by {
        assert outcomes[..0] == [];
      }
    } else {
      assert outcomes[c] == TryChunk(chunks[c], taskType, maxRetries, embed, call, 0) by {
        var rest := outcomes[1..];
        var nextCall := firstCall + outcomes[0].calls;
        var before := Calls(rest[..c - 1]);
        assert rest[c - 1] == TryChunk(chunks[1..][c - 1], taskType, maxRetries, embed, nextCall + before, 0) by {
          ChainedAt(chunks[1..], taskType, maxRetries, embed, nextCall, rest, c - 1);
        }
        assert outcomes[c] == rest[c - 1] && Calls(outcomes[..c]) == outcomes[0].calls + before by {
          CallsShift(outcomes, outcomes[0], rest, c);
        }
        assert chunks[c] == chunks[1..][c - 1];
        assert call == nextCall + before;
      }
    }
  }

  /** Past the first outcome, positions and call counts shift by one outcome. */
  lemma CallsShift(outcomes: seq<ChunkOutcome>, o: ChunkOutcome, rest: seq<ChunkOutcome>, c: nat)
    requires outcomes == [o] + rest && 0 < c <= |rest|
    ensures outcomes[c] == rest[c - 1]
    ensures Calls(outcomes[..c]) == o.calls + Calls(rest[..c - 1])
  {
    assert outcomes[..c][1..] == rest[..c - 1];
  }

  /**
   * No chunk makes more than `max_retries` calls, and a chunk that gets no
   * vectors made exactly `max(max_retries, 0)` calls, every one of which failed.
   */
  lemma CallsPerChunk(chunks: seq<seq<string>>, taskType: string, maxRetries: int, embed: Embedder,
                      firstCall: nat, c: nat)
    requires c < |chunks|
    ensures var run := Run(chunks, taskType, maxRetries, embed, firstCall);
      var o := run.outcomes[c];
      var start := firstCall + Calls(run.outcomes[..c]);
      && o.calls <= Max0(maxRetries)
      && (o.result.None? ==>
            && o.calls == Max0(maxRetries)
            && forall n :: start <= n < start + o.calls ==> embed(Request(chunks[c], taskType), n).None?)
      && (o.result.Some? ==> 0 < o.calls && o.result == embed(Request(chunks[c], taskType), start + o.calls - 1))
  {
    RunOutcomeAt(chunks, taskType, maxRetries, embed, firstCall, c);
    var run := Run(chunks, taskType, maxRetries, embed, firstCall);
    FailedCalls(chunks[c], taskType, maxRetries, embed, firstCall + Calls(run.outcomes[..c]), 0);
  }

  /** The whole loop makes at most `max_retries` calls per chunk, so it ends after finitely many calls. */
  lemma CallsBound(chunks: seq<seq<string>>, taskType: string, maxRetries: int,
                   embed: Embedder, firstCall: nat)
    ensures Calls(Run(chunks, taskType, maxRetries, embed, firstCall).outcomes) <= |chunks| * Max0(maxRetries)
  {
    var outcomes := Run(chunks, taskType, maxRetries, embed, firstCall).outcomes;
    forall c | 0 <= c < |outcomes|
      ensures outcomes[c].calls <= Max0(maxRetries)
    {
      CallsPerChunk(chunks, taskType, maxRetries, embed, firstCall, c);
    }
    CallsSumBound(outcomes, Max0(maxRetries));
  }

  /** Outcomes of at most `m` calls each add up to at most `m` calls per outcome. */
  lemma {:induction false} CallsSumBound(outcomes: seq<ChunkOutcome>, m: nat)
    requires forall c :: 0 <= c < |outcomes| ==> outcomes[c].calls <= m
    ensures Calls(outcomes) <= |outcomes| * m
    decreases |outcomes|
  {
    if |outcomes| > 0 {
      CallsSumBound(outcomes[1..], m);
      MulStep(|outcomes|, m);
    }
  }

  lemma MulStep(n: nat, m: nat)
    requires n > 0
    ensures n * m == m + (n - 1) * m
  {
  }

  /** With `max_retries <= 0` the service is never called and the result is empty. */
  lemma {:induction false} NoRetriesNoCalls(chunks: seq<seq<string>>, taskType: string, maxRetries: int,
                                            embed: Embedder, firstCall: nat)
    requires maxRetries <= 0
    ensures var run := Run(chunks, taskType, maxRetries, embed, firstCall);
      run.embeddings == [] && Calls(run.outcomes) == 0
    decreases |chunks|
  {
    if |chunks| > 0 {
      var o := TryChunk(chunks[0], taskType, maxRetries, embed, firstCall, 0);
      var rest := Run(chunks[1..], taskType, maxRetries, embed, firstCall + o.calls);
      NoRetriesNoCalls(chunks[1..], taskType, maxRetries, embed, firstCall + o.calls);
      assert ([o] + rest.outcomes)[1..] == rest.outcomes;
    }
  }

  /**
   * The result is the successful chunks' vectors concatenated in chunk order:
   * each `extend` appends after everything earlier chunks added.
   */
  lemma {:induction false} RunIsFlatten(chunks: seq<seq<string>>, taskType: string, maxRetries: int,
                                        embed: Embedder, firstCall: nat)
    ensures var run := Run(chunks, taskType, maxRetries, embed, firstCall);
      run.embeddings == Flatten(Contributions(run.outcomes))
    decreases |chunks|
  {
    if |chunks| > 0 {
      var o := TryChunk(chunks[0], taskType, maxRetries, embed, firstCall, 0);
      var rest := Run(chunks[1..], taskType, maxRetries, embed, firstCall + o.calls);
      RunIsFlatten(chunks[1..], taskType, maxRetries, embed, firstCall + o.calls);
      assert ([o] + rest.outcomes)[1..] == rest.outcomes;
    }
  }

  /** Position `|Flatten(xs[..c])| + j` of the concatenation holds element `j` of part `c`. */
  lemma {:induction false} FlattenIndex<T>(xs: seq<seq<T>>, c: nat, j: nat)
    requires c < |xs| && j < |xs[c]|
    ensures |Flatten(xs[..c])| + j < |Flatten(xs)|
    ensures Flatten(xs)[|Flatten(xs[..c])| + j] == xs[c][j]
    decreases c
  {
    if c == 0 {
      assert xs[..0] == [];
    } else {
      FlattenIndex(xs[1..], c - 1, j);
      assert xs[..c][1..] == xs[1..][..c - 1];
    }
  }

  /** Concatenations of parts of equal lengths have equal lengths. */
  lemma {:induction false} FlattenSameLengths<T, U>(xs: seq<seq<T>>, ys: seq<seq<U>>)
    requires |xs| == |ys|
    requires forall c :: 0 <= c < |xs| ==> |xs[c]| == |ys[c]|
    ensures |Flatten(xs)| == |Flatten(ys)|
    decreases |xs|
  {
    if |xs| > 0 {
      FlattenSameLengths(xs[1..], ys[1..]);
    }
  }

  /** Concatenations of parts no longer than their partners are no longer, and shorter when one part is. */
  lemma {:induction false} FlattenShorter<T, U>(xs: seq<seq<T>>, ys: seq<seq<U>>)
    requires |xs| == |ys|
    requires forall c :: 0 <= c < |xs| ==> |xs[c]| <= |ys[c]|
    ensures |Flatten(xs)| <= |Flatten(ys)|
    ensures (exists c :: 0 <= c < |xs| && |xs[c]| < |ys[c]|) ==> |Flatten(xs)| < |Flatten(ys)|
    decreases |xs|
  {
    if |xs| > 0 {
      FlattenShorter(xs[1..], ys[1..]);
      if exists c :: 0 <= c < |xs| && |xs[c]| < |ys[c]| {
        var c :| 0 <= c < |xs| && |xs[c]| < |ys[c]|;
        if c > 0 {
          assert |xs[1..][c - 1]| < |ys[1..][c - 1]|;
        }
      }
    }
  }

  /** Parts of a uniform length: the first `c` of them hold `c * size` elements. */
  lemma {:induction false} FlattenUniform<T>(xs: seq<seq<T>>, c: nat, size: nat)
    requires c <= |xs|
    requires forall k :: 0 <= k < c ==> |xs[k]| == size
    ensures |Flatten(xs[..c])| == Offset(c, size)
    decreases c
  {
    if c > 0 {
      FlattenUniform(xs[1..], c - 1, size);
      assert xs[..c][1..] == xs[1..][..c - 1];
    }
  }

  /** The service answers every successful call with one vector per text of the request. */
  ghost predicate OnePerText(embed: Embedder)
  {
    forall req, n :: embed(req, n).Some? ==> |embed(req, n).value| == |req.content|
  }

  predicate AllSucceeded(run: EmbedRun)
  {
    forall c :: 0 <= c < |run.outcomes| ==> run.outcomes[c].result.Some?
  }

  /** Under `OnePerText`, a chunk contributes as many vectors as it has texts when it succeeds, none otherwise. */
  lemma ContributionLengths(chunks: seq<seq<string>>, taskType: string, maxRetries: int, embed: Embedder,
                            firstCall: nat, c: nat)
    requires OnePerText(embed) && c < |chunks|
    ensures var o := Run(chunks, taskType, maxRetries, embed, firstCall).outcomes[c];
      |Contribution(o)| == (if o.result.Some? then |chunks[c]| else 0)
  {
    var run := Run(chunks, taskType, maxRetries, embed, firstCall);
    var o := run.outcomes[c];
    CallsPerChunk(chunks, taskType, maxRetries, embed, firstCall, c);
    if o.result.Some? {
      var n := firstCall + Calls(run.outcomes[..c]) + o.calls - 1;
      assert o.result == embed(Request(chunks[c], taskType), n);
      assert |embed(Request(chunks[c], taskType), n).value| == |Request(chunks[c], taskType).content|;
    }
  }

  /**
   * When the service answers one vector per text, the result has one vector
   * per abstract exactly when every chunk succeeded; a chunk that exhausts
   * its retries leaves the result shorter than the input, without an error.
   */
  lemma LengthIffAllSucceeded(abstracts: seq<string>, size: nat, taskType: string, maxRetries: int,
                              embed: Embedder)
    requires size > 0 && OnePerText(embed)
    ensures var run := Run(Chunks(abstracts, size), taskType, maxRetries, embed, 0);
      && |run.embeddings| <= |abstracts|
      && (|run.embeddings| == |abstracts| <==> AllSucceeded(run))
  {
    var chunks := Chunks(abstracts, size);
    var run := Run(chunks, taskType, maxRetries, embed, 0);
    var parts := Contributions(run.outcomes);
    assert run.embeddings == Flatten(parts) by {
      RunIsFlatten(chunks, taskType, maxRetries, embed, 0);
    }
    assert Flatten(chunks) == abstracts by {
      ChunksConcat(abstracts, size);
    }
    assert |Flatten(parts)| <= |Flatten(chunks)| && (|Flatten(parts)| == |Flatten(chunks)| <==> AllSucceeded(run)) by {
      forall c | 0 <= c < |chunks|
        ensures |parts[c]| == (if run.outcomes[c].result.Some? then |chunks[c]| else 0)
      {
        ContributionLengths(chunks, taskType, maxRetries, embed, 0, c);
      }
      FlattenShorter(parts, chunks);
      if AllSucceeded(run) {
        FlattenSameLengths(parts, chunks);
      } else {
        var c :| 0 <= c < |run.outcomes| && run.outcomes[c].result.None?;
        assert |parts[c]| < |chunks[c]|;
      }
    }
  }

  /** Appending a part appends its elements. */
  lemma {:induction false} FlattenSnoc<T>(xs: seq<seq<T>>, x: seq<T>)
    ensures Flatten(xs + [x]) == Flatten(xs) + x
    decreases |xs|
  {
    if |xs| == 0 {
      assert xs + [x] == [x];
      assert Flatten([x]) == x + Flatten<T>([]);
    } else {
      FlattenSnoc(xs[1..], x);
      assert (xs + [x])[1..] == xs[1..] + [x];
    }
  }

  /** Chunk `c` starts at offset `c * size` of the input. */
  lemma ChunkOffset(abstracts: seq<string>, size: nat, c: nat)
    requires size > 0 && c < |Chunks(abstracts, size)|
    ensures |Flatten(Chunks(abstracts, size)[..c])| == Offset(c, size)
  {
    FlattenUniform(Chunks(abstracts, size), c, size);
  }

  /** The vectors of the chunks before `c` have as many elements as their texts, when all of them succeeded. */
  lemma PrefixAligned(abstracts: seq<string>, size: nat, taskType: string, maxRetries: int, embed: Embedder, c: nat)
    requires size > 0 && OnePerText(embed) && c < |Chunks(abstracts, size)|
    requires var run := Run(Chunks(abstracts, size), taskType, maxRetries, embed, 0);
      forall k :: 0 <= k < c ==> run.outcomes[k].result.Some?
    ensures var run := Run(Chunks(abstracts, size), taskType, maxRetries, embed, 0);
      |Flatten(Contributions(run.outcomes)[..c])| == Offset(c, size)
  {
    var chunks := Chunks(abstracts, size);
    var run := Run(chunks, taskType, maxRetries, embed, 0);
    var parts := Contributions(run.outcomes);
    forall k | 0 <= k < c
      ensures |parts[..c][k]| == |chunks[..c][k]|
    {
      ContributionLengths(chunks, taskType, maxRetries, embed, 0, k);
    }
    FlattenSameLengths(parts[..c], chunks[..c]);
    ChunkOffset(abstracts, size, c);
  }

  /**
   * With every chunk answered one vector per text, the vector at position
   * `c * size + j` is vector `j` of chunk `c`'s answer, and the text at that
   * position is text `j` of chunk `c`'s request.
   */
  lemma AlignedWhenAllSucceeded(abstracts: seq<string>, size: nat, taskType: string, maxRetries: int,
                                embed: Embedder, c: nat, j: nat)
    requires size > 0 && OnePerText(embed)
    requires AllSucceeded(Run(Chunks(abstracts, size), taskType, maxRetries, embed, 0))
    requires c < |Chunks(abstracts, size)| && j < |Chunks(abstracts, size)[c]|
    ensures var run := Run(Chunks(abstracts, size), taskType, maxRetries, embed, 0);
      && Offset(c, size) + j < |abstracts| && Offset(c, size) + j < |run.embeddings|
      && abstracts[Offset(c, size) + j] == Chunks(abstracts, size)[c][j]
      && j < |run.outcomes[c].result.value|
      && run.embeddings[Offset(c, size) + j] == run.outcomes[c].result.value[j]
  {
    TextAt(abstracts, size, c, j);
    VectorAt(abstracts, size, taskType, maxRetries, embed, c, j);
  }

  /** Text `j` of chunk `c` sits at position `c * size + j` of the input. */
  lemma TextAt(abstracts: seq<string>, size: nat, c: nat, j: nat)
    requires size > 0 && c < |Chunks(abstracts, size)| && j < |Chunks(abstracts, size)[c]|
    ensures Offset(c, size) + j < |abstracts| && abstracts[Offset(c, size) + j] == Chunks(abstracts, size)[c][j]
  {
    ChunkOffset(abstracts, size, c);
    ChunksConcat(abstracts, size);
    FlattenIndex(Chunks(abstracts, size), c, j);
  }

  /** With every chunk answered, vector `j` of chunk `c` sits at position `c * size + j` of the result. */
  lemma VectorAt(abstracts: seq<string>, size: nat, taskType: string, maxRetries: int,
                 embed: Embedder, c: nat, j: nat)
    requires size > 0 && OnePerText(embed)
    requires AllSucceeded(Run(Chunks(abstracts, size), taskType, maxRetries, embed, 0))
    requires c < |Chunks(abstracts, size)| && j < |Chunks(abstracts, size)[c]|
    ensures var run := Run(Chunks(abstracts, size), taskType, maxRetries, embed, 0);
      && Offset(c, size) + j < |run.embeddings|
      && j < |run.outcomes[c].result.value|
      && run.embeddings[Offset(c, size) + j] == run.outcomes[c].result.value[j]
  {
    SucceededParts(abstracts, size, taskType, maxRetries, embed, c);
    VectorOfChunk(Run(Chunks(abstracts, size), taskType, maxRetries, embed, 0), c, j, Offset(c, size));
  }

  /** In a run whose result is its contributions concatenated, vector `j` of chunk `c` follows those of the chunks before it. */
  lemma VectorOfChunk(run: EmbedRun, c: nat, j: nat, start: nat)
    requires c < |run.outcomes| && run.outcomes[c].result.Some? && j < |run.outcomes[c].result.value|
    requires run.embeddings == Flatten(Contributions(run.outcomes))
    requires |Flatten(Contributions(run.outcomes)[..c])| == start
    ensures start + j < |run.embeddings| && run.embeddings[start + j] == run.outcomes[c].result.value[j]
  {
    FlattenIndex(Contributions(run.outcomes), c, j);
  }

  /** The vectors of chunk `c` and of the chunks before it, when all chunks succeeded. */
  lemma SucceededParts(abstracts: seq<string>, size: nat, taskType: string, maxRetries: int,
                       embed: Embedder, c: nat)
    requires size > 0 && OnePerText(embed)
    requires AllSucceeded(Run(Chunks(abstracts, size), taskType, maxRetries, embed, 0))
    requires c < |Chunks(abstracts, size)|
    ensures var run := Run(Chunks(abstracts, size), taskType, maxRetries, embed, 0);
      var parts := Contributions(run.outcomes);
      && run.outcomes[c].result.Some?
      && parts[c] == run.outcomes[c].result.value
      && |parts[c]| == |Chunks(abstracts, size)[c]|
      && |Flatten(parts[..c])| == Offset(c, size)
      && run.embeddings == Flatten(parts)
  {
    var chunks := Chunks(abstracts, size);
    var run := Run(chunks, taskType, maxRetries, embed, 0);
    assert run.outcomes[c].result.Some?;
    ContributionLengths(chunks, taskType, maxRetries, embed, 0, c);
    PrefixAligned(abstracts, size, taskType, maxRetries, embed, c);
    RunIsFlatten(chunks, taskType, maxRetries, embed, 0);
  }

  /**
   * A chunk that exhausts its retries is skipped silently: when the chunks
   * before `c` succeeded, chunk `c` failed and chunk `c + 1` succeeded, the
   * position of the first text of chunk `c` holds the vector answered for the
   * first text of chunk `c + 1`.
   */
  lemma FailureShiftsLater(abstracts: seq<string>, size: nat, taskType: string, maxRetries: int,
                           embed: Embedder, c: nat)
    requires size > 0 && OnePerText(embed) && c + 1 < |Chunks(abstracts, size)|
    requires var run := Run(Chunks(abstracts, size), taskType, maxRetries, embed, 0);
      && (forall k :: 0 <= k < c ==> run.outcomes[k].result.Some?)
      && run.outcomes[c].result.None? && run.outcomes[c + 1].result.Some?
    ensures var run := Run(Chunks(abstracts, size), taskType, maxRetries, embed, 0);
      && Offset(c + 1, size) < |abstracts| && Offset(c, size) < |run.embeddings|
      && abstracts[Offset(c + 1, size)] == Chunks(abstracts, size)[c + 1][0]
      && 0 < |run.outcomes[c + 1].result.value|
      && run.embeddings[Offset(c, size)] == run.outcomes[c + 1].result.value[0]
      && |run.embeddings| < |abstracts|
  {
    TextAt(abstracts, size, c + 1, 0);
    ShiftedVector(abstracts, size, taskType, maxRetries, embed, c, 0);
    var run := Run(Chunks(abstracts, size), taskType, maxRetries, embed, 0);
    assert !AllSucceeded(run);
    LengthIffAllSucceeded(abstracts, size, taskType, maxRetries, embed);
  }

  /** After the failed chunk `c`, vector `j` of chunk `c + 1` sits `j` past where chunk `c` starts. */
  lemma ShiftedVector(abstracts: seq<string>, size: nat, taskType: string, maxRetries: int,
                      embed: Embedder, c: nat, j: nat)
    requires size > 0 && OnePerText(embed) && c + 1 < |Chunks(abstracts, size)|
    requires j < |Chunks(abstracts, size)[c + 1]|
    requires var run := Run(Chunks(abstracts, size), taskType, maxRetries, embed, 0);
      && (forall k :: 0 <= k < c ==> run.outcomes[k].result.Some?)
      && run.outcomes[c].result.None? && run.outcomes[c + 1].result.Some?
    ensures var run := Run(Chunks(abstracts, size), taskType, maxRetries, embed, 0);
      && Offset(c, size) + j < |run.embeddings|
      && j < |run.outcomes[c + 1].result.value|
      && run.embeddings[Offset(c, size) + j] == run.outcomes[c + 1].result.value[j]
  {
    var chunks := Chunks(abstracts, size);
    PrefixAligned(abstracts, size, taskType, maxRetries, embed, c);
    ContributionLengths(chunks, taskType, maxRetries, embed, 0, c + 1);
    RunIsFlatten(chunks, taskType, maxRetries, embed, 0);
    ShiftedPastEmpty(Run(chunks, taskType, maxRetries, embed, 0), c, j, Offset(c, size));
  }

  /** In a run whose result is its contributions concatenated, a chunk that added nothing is taken over by the next one. */
  lemma ShiftedPastEmpty(run: EmbedRun, c: nat, j: nat, start: nat)
    requires c + 1 < |run.outcomes| && run.outcomes[c].result.None? && run.outcomes[c + 1].result.Some?
    requires j < |run.outcomes[c + 1].result.value|
    requires run.embeddings == Flatten(Contributions(run.outcomes))
    requires |Flatten(Contributions(run.outcomes)[..c])| == start
    ensures start + j < |run.embeddings| && run.embeddings[start + j] == run.outcomes[c + 1].result.value[j]
  {
    SkipEmptyPart(Contributions(run.outcomes), c, start, j);
  }

  /** An empty part at `c` lets the elements of part `c + 1` take its place. */
  lemma SkipEmptyPart<T>(xs: seq<seq<T>>, c: nat, offset: nat, j: nat)
    requires c + 1 < |xs| && xs[c] == [] && j < |xs[c + 1]|
    requires |Flatten(xs[..c])| == offset
    ensures offset + j < |Flatten(xs)| && Flatten(xs)[offset + j] == xs[c + 1][j]
  {
    assert xs[..c + 1] == xs[..c] + [xs[c]];
    FlattenSnoc(xs[..c], xs[c]);
    FlattenIndex(xs, c + 1, j);
  }

  // Attaching the vectors to the records (`daily_processing`)

  /** The two keys one pass of the `zip` loop sets on an entry. */
  function Attach(entry: Record, embedding: Vector): (r: Record)
    ensures r.embedding == Some(embedding) && r.embeddingModel == Some(GeminiEmbeddingModel)
    ensures r.(embedding := entry.embedding, embeddingModel := entry.embeddingModel) == entry
  {
    entry.(embedding := Some(embedding), embeddingModel := Some(GeminiEmbeddingModel))
  }

  /**
   * `zip(embeddings, arxiv)` stops at the shorter list: the first
   * `min(len(embeddings), len(arxiv))` entries gain the two keys, in order,
   * and the others are unchanged.
   */
  function Attached(records: seq<Record>, embeddings: seq<Vector>): (out: seq<Record>)
    ensures |out| == |records|
    ensures forall k :: 0 <= k < |records| && k < |embeddings| ==>
      && out[k].embedding == Some(embeddings[k])
      && out[k].embeddingModel == Some(GeminiEmbeddingModel)
      && out[k] == records[k].(embedding := out[k].embedding, embeddingModel := out[k].embeddingModel)
    ensures forall k :: |embeddings| <= k < |records| ==> out[k] == records[k]
  {
    if |records| == 0 || |embeddings| == 0 then records
    else [Attach(records[0], embeddings[0])] + Attached(records[1..], embeddings[1..])
  }

  lemma AttachedAt(records: seq<Record>, embeddings: seq<Vector>, k: nat)
    requires k < |records|
    ensures k < |embeddings| ==> Attached(records, embeddings)[k].embedding == Some(embeddings[k])
    ensures |embeddings| <= k ==> Attached(records, embeddings)[k] == records[k]
  {
  }

  /** The `for embedding, entry in zip(embeddings, arxiv)` loop, updating the entries in place. */
  method AttachEmbeddings(arxiv: array<Record>, embeddings: seq<Vector>)
    modifies arxiv
    ensures arxiv[..] == Attached(old(arxiv[..]), embeddings)
  {
    ghost var original := arxiv[..];
    var k := 0;
    while k < |embeddings| && k < arxiv.Length
      invariant 0 <= k <= arxiv.Length && k <= |embeddings|
      invariant forall m :: 0 <= m < k ==> arxiv[m] == Attach(original[m], embeddings[m])
      invariant forall m :: k <= m < arxiv.Length ==> arxiv[m] == original[m]
      decreases arxiv.Length - k
    {
      arxiv[k] := arxiv[k].(embedding := Some(embeddings[k]));
      arxiv[k] := arxiv[k].(embeddingModel := Some(GeminiEmbeddingModel));
      k := k + 1;
    }
    ghost var expected := Attached(original, embeddings);
    assert forall m :: 0 <= m < arxiv.Length ==> arxiv[m] == expected[m];
  }

  /** `[d["abstract"] for d in arxiv]`. */
  function Abstracts(records: seq<Record>): (abstracts: seq<string>)
    ensures |abstracts| == |records|
    ensures forall k :: 0 <= k < |records| ==> abstracts[k] == records[k].abstractText
  {
    if |records| == 0 then [] else [records[0].abstractText] + Abstracts(records[1..])
  }

  /**
   * `daily_processing` after the file is read: embed the abstracts with the
   * default task type, chunk size and retry count, then attach the vectors.
   */
  method DailyEmbeddings(arxiv: array<Record>, embed: Embedder)
    modifies arxiv
    ensures arxiv[..] == Attached(old(arxiv[..]),
      Run(Chunks(Abstracts(old(arxiv[..])), DefaultChunkSize), DefaultTaskType, DefaultMaxRetries, embed, 0).embeddings)
  {
    var abstracts := Abstracts(arxiv[..]);
    var r := GetEmbeddingsByChunk(abstracts, DefaultTaskType, DefaultChunkSize, DefaultMaxRetries, embed);
    if r.Success? {
      AttachEmbeddings(arxiv, r.value.embeddings);
    }
  }

  /** `gzip.open(None)` raises when no file was given and `../data` has none. */
  datatype OpenError = NoDataFile

  /**
   * `daily_processing`: the chosen file's records gain the vectors of a
   * default run over their abstracts, and are written to
   * `f"../data/{filename}"`. The result is that path and the records written.
   */
  method DailyProcessing(filename: Option<string>, listing: seq<Files.DirEntry>, read: string -> seq<Record>,
                         embed: Embedder)
    returns (r: Result<(string, seq<Record>), OpenError>)
    ensures r.Failure? <==> Files.ChosenFile(filename, listing).None?
    ensures r.Success? ==>
      var path := Files.ChosenFile(filename, listing).value;
      var records := read(path);
      && r.value.0 == Files.DataDirectory + "/" + path
      && r.value.1 == Attached(records, Run(Chunks(Abstracts(records), DefaultChunkSize), DefaultTaskType,
                                            DefaultMaxRetries, embed, 0).embeddings)
  {
    var chosen := Files.ChosenFile(filename, listing);
    if chosen.None? {
      return Failure(NoDataFile);
    }
    var records := read(chosen.value);
    var arxiv := new Record[|records|](k requires 0 <= k < |records| => records[k]);
    assert arxiv[..] == records;
    DailyEmbeddings(arxiv, embed);
    return Success((Files.DataDirectory + "/" + chosen.value, arxiv[..]));
  }

  /**
   * When every chunk succeeded with one vector per text, entry `k` receives
   * the vector the service returned for entry `k`'s own abstract.
   */
  lemma EntryGetsOwnVector(records: seq<Record>, size: nat, taskType: string, maxRetries: int,
                           embed: Embedder, c: nat, j: nat)
    requires size > 0 && OnePerText(embed)
    requires AllSucceeded(Run(Chunks(Abstracts(records), size), taskType, maxRetries, embed, 0))
    requires c < |Chunks(Abstracts(records), size)| && j < |Chunks(Abstracts(records), size)[c]|
    ensures var run := Run(Chunks(Abstracts(records), size), taskType, maxRetries, embed, 0);
      && Offset(c, size) + j < |records|
      && records[Offset(c, size) + j].abstractText == Chunks(Abstracts(records), size)[c][j]
      && j < |run.outcomes[c].result.value|
      && Attached(records, run.embeddings)[Offset(c, size) + j].embedding == Some(run.outcomes[c].result.value[j])
  {
    var abstracts := Abstracts(records);
    var chunks := Chunks(abstracts, size);
    var run := Run(chunks, taskType, maxRetries, embed, 0);
    var k := Offset(c, size) + j;
    assert k < |abstracts| && k < |run.embeddings| && abstracts[k] == chunks[c][j]
      && j < |run.outcomes[c].result.value| && run.embeddings[k] == run.outcomes[c].result.value[j] by {
      AlignedWhenAllSucceeded(abstracts, size, taskType, maxRetries, embed, c, j);
    }
    AttachedAt(records, run.embeddings, k);
  }

  /**
   * After a silently skipped chunk `c`, the entry holding the first abstract of
   * chunk `c` is stamped with the vector of the first abstract of chunk `c + 1`,
   * and the last entry keeps no embedding.
   */
  lemma EntryGetsLaterVector(records: seq<Record>, size: nat, taskType: string, maxRetries: int,
                             embed: Embedder, c: nat)
    requires size > 0 && OnePerText(embed) && c + 1 < |Chunks(Abstracts(records), size)|
    requires var run := Run(Chunks(Abstracts(records), size), taskType, maxRetries, embed, 0);
      && (forall k :: 0 <= k < c ==> run.outcomes[k].result.Some?)
      && run.outcomes[c].result.None? && run.outcomes[c + 1].result.Some?
    ensures var run := Run(Chunks(Abstracts(records), size), taskType, maxRetries, embed, 0);
      && Offset(c + 1, size) < |records|
      && records[Offset(c + 1, size)].abstractText == Chunks(Abstracts(records), size)[c + 1][0]
      && 0 < |run.outcomes[c + 1].result.value|
      && Attached(records, run.embeddings)[Offset(c, size)].embedding == Some(run.outcomes[c + 1].result.value[0])
    ensures var run := Run(Chunks(Abstracts(records), size), taskType, maxRetries, embed, 0);
      0 < |records| && Attached(records, run.embeddings)[|records| - 1] == records[|records| - 1]
  {
    var abstracts := Abstracts(records);
    var chunks := Chunks(abstracts, size);
    var run := Run(chunks, taskType, maxRetries, embed, 0);
    var k := Offset(c, size);
    assert Offset(c + 1, size) < |abstracts| && abstracts[Offset(c + 1, size)] == chunks[c + 1][0]
      && k < |run.embeddings| && 0 < |run.outcomes[c + 1].result.value|
      && run.embeddings[k] == run.outcomes[c + 1].result.value[0]
      && |run.embeddings| < |abstracts| by {
      FailureShiftsLater(abstracts, size, taskType, maxRetries, embed, c);
    }
    assert Attached(records, run.embeddings)[k].embedding == Some(run.outcomes[c + 1].result.value[0]) by {
      AttachedAt(records, run.embeddings, k);
    }
    assert Attached(records, run.embeddings)[|records| - 1] == records[|records| - 1] by {
      AttachedAt(records, run.embeddings, |records| - 1);
    }
  }
}

=== FILE: labels.dfy ===
/**
 * Bookkeeping over HDBSCAN cluster labels: the noise count printed by both
 * the training summary and the daily plot title, `np.unique` of the labels,
 * and the `max(labels) + 2` label count of the training summary.
 */
module Labels {
  import opened Wrappers

  /** HDBSCAN's label for points that belong to no cluster. */
  const Noise := -1

  /** `len([num for num in labels if num == -1])`. */
  function CountNoise(labels: seq<int>): (n: nat)
    ensures n <= |labels|
    ensures n == 0 <==> Noise !in labels
    ensures n == |labels| <==> forall k :: 0 <= k < |labels| ==> labels[k] == Noise
  {
    if |labels| == 0 then 0
    else (if labels[0] == Noise then 1 else 0) + CountNoise(labels[1..])
  }

  /** The noise count is the multiplicity of the noise label. */
  lemma {:induction false} CountNoiseIsMultiplicity(labels: seq<int>)
    ensures CountNoise(labels) == multiset(labels)[Noise]
  {
    if |labels| > 0 {
      CountNoiseIsMultiplicity(labels[1..]);
      assert labels == [labels[0]] + labels[1..];
      assert multiset(labels) == multiset{labels[0]} + multiset(labels[1..]);
    }
  }

  /** The noise count does not depend on the order of the labels. */
  lemma CountNoisePermutation(labels: seq<int>, other: seq<int>)
    requires multiset(labels) == multiset(other)
    ensures CountNoise(labels) == CountNoise(other)
  {
    CountNoiseIsMultiplicity(labels);
    CountNoiseIsMultiplicity(other);
  }

  predicate StrictlyIncreasing(s: seq<int>)
  {
    forall i, j :: 0 <= i < j < |s| ==> s[i] < s[j]
  }

  /** Inserting `x` into a strictly increasing sequence, unless it is already there. */
  function InsertSorted(s: seq<int>, x: int): (r: seq<int>)
    requires StrictlyIncreasing(s)
    ensures StrictlyIncreasing(r)
    ensures forall y :: y in r <==> y in s || y == x
  {
    if |s| == 0 then [x]
    else if x < s[0] then
      ConsIncreasing(x, s);
      [x] + s
    else if x == s[0] then s
    else
      var tail := InsertSorted(s[1..], x);
      HeadBelowTail(s, x, tail);
      ConsIncreasing(s[0], tail);
      [s[0]] + tail
  }

  /** A value below every element of a strictly increasing sequence can go in front of it. */
  lemma ConsIncreasing(h: int, s: seq<int>)
    requires StrictlyIncreasing(s) && forall y :: y in s ==> h < y
    ensures StrictlyIncreasing([h] + s)
  {
    var r := [h] + s;
    forall i, j | 0 <= i < j < |r|
      ensures r[i] < r[j]
    {
      assert r[j] == s[j - 1] && r[j] in s;
      if i > 0 {
        assert r[i] == s[i - 1];
      }
    }
  }

  /** The head of a strictly increasing sequence is below everything its tail grows into. */
  lemma HeadBelowTail(s: seq<int>, x: int, tail: seq<int>)
    requires StrictlyIncreasing(s) && |s| > 0 && s[0] < x
    requires forall y :: y in tail <==> y in s[1..] || y == x
    ensures forall y :: y in tail ==> s[0] < y
    ensures forall y :: y in [s[0]] + tail <==> y in s || y == x
  {
    assert s == [s[0]] + s[1..];
    forall y | y in s[1..]
      ensures s[0] < y
    {
      var k :| 0 <= k < |s[1..]| && s[1..][k] == y;
      assert s[k + 1] == y;
    }
  }

  /** `np.unique(labels)`: the distinct labels in ascending order. */
  function Unique(labels: seq<int>): (u: seq<int>)
    ensures StrictlyIncreasing(u)
    ensures forall x :: x in u <==> x in labels
  {
    if |labels| == 0 then [] else InsertSorted(Unique(labels[1..]), labels[0])
  }

  /** Two strictly increasing sequences with the same elements are the same sequence. */
  lemma {:induction false} SortedSetUnique(a: seq<int>, b: seq<int>)
    requires StrictlyIncreasing(a) && StrictlyIncreasing(b)
    requires forall x :: x in a <==> x in b
    ensures a == b
    decreases |a|
  {
    // neither is empty unless both are
    if |a| > 0 {
      assert a[0] in a;
    }
    if |b| > 0 {
      assert b[0] in b;
    }
    if |a| > 0 && |b| > 0 {
      // both heads are the least element of the common set
      assert a[0] in b;
      assert b[0] in a;
      assert a[0] == b[0];
      forall x
        ensures x in a[1..] <==> x in b[1..]
      {
        if x in a[1..] {
          assert x in b;
          assert x != b[0];
        }
        if x in b[1..] {
          assert x in a;
          assert x != a[0];
        }
      }
      SortedSetUnique(a[1..], b[1..]);
      assert a == [a[0]] + a[1..] && b == [b[0]] + b[1..];
    }
  }

  /** `np.unique` is fully determined by its promise: ascending, duplicate-free, same elements. */
  lemma UniqueIsCanonical(labels: seq<int>, u: seq<int>)
    requires StrictlyIncreasing(u)
    requires forall x :: x in u <==> x in labels
    ensures u == Unique(labels)
  {
    SortedSetUnique(u, Unique(labels));
  }

  /** The integers `lo, lo + 1, ..., hi - 1`. */
  function Range(lo: int, hi: int): (r: seq<int>)
    ensures |r| == if lo <= hi then hi - lo else 0
    ensures forall k :: 0 <= k < |r| ==> r[k] == lo + k
    decreases hi - lo
  {
    if hi <= lo then [] else [lo] + Range(lo + 1, hi)
  }

  /** `max(labels)`, which Python refuses on an empty list. */
  function Max(labels: seq<int>): (m: int)
    requires |labels| > 0
    ensures m in labels
    ensures forall k :: 0 <= k < |labels| ==> labels[k] <= m
  {
    if |labels| == 1 then labels[0]
    else
      var rest := Max(labels[1..]);
      if labels[0] >= rest then labels[0] else rest
  }

  /** `max()` of an empty sequence raises ValueError. */
  datatype MaxError = EmptyMax

  /** The "Number of labels" line: `max(labels) + 2`. */
  function LabelCount(labels: seq<int>): (r: Result<int, MaxError>)
    ensures r.Failure? <==> |labels| == 0
    ensures r.Success? ==> (r.value - 2) in labels && forall x :: x in labels ==> x <= r.value - 2
  {
    if |labels| == 0 then Failure(EmptyMax) else Success(Max(labels) + 2)
  }

  /**
   * When the labels are the noise label and the clusters `0..m` with none
   * missing, `max(labels) + 2` is the number of distinct labels, noise
   * included.
   */
  lemma LabelCountCountsDistinct(labels: seq<int>)
    requires Noise in labels
    requires forall x :: x in labels ==> Noise <= x
    requires |labels| > 0 && forall x :: 0 <= x <= Max(labels) ==> x in labels
    ensures LabelCount(labels) == Success(|Unique(labels)|)
  {
    var m := Max(labels);
    var r := Range(Noise, m + 1);
    forall i, j | 0 <= i < j < |r|
      ensures r[i] < r[j]
    {
    }
    forall x
      ensures x in r <==> x in labels
    {
      if x in labels {
        assert r[x + 1] == x;
      }
    }
    UniqueIsCanonical(labels, r);
  }

  /**
   * Without noise, when the clusters `0..m` are all used, `max(labels) + 2`
   * is one more than the number of distinct labels.
   */
  lemma LabelCountWithoutNoise(labels: seq<int>)
    requires |labels| > 0
    requires forall x :: x in labels ==> 0 <= x
    requires forall x :: 0 <= x <= Max(labels) ==> x in labels
    ensures LabelCount(labels) == Success(|Unique(labels)| + 1)
  {
    var m := Max(labels);
    var r := Range(0, m + 1);
    forall i, j | 0 <= i < j < |r|
      ensures r[i] < r[j]
    {
    }
    forall x
      ensures x in r <==> x in labels
    {
      if x in labels {
        assert r[x] == x;
      }
    }
    UniqueIsCanonical(labels, r);
  }
}

=== FILE: models.dfy ===
/**
 * The UMAP reducers and the HDBSCAN clusterer as stateful objects: their
 * hyper-parameters, the data they were fit on, and the pickled snapshots in
 * the `../models` directory that training writes and inference loads.
 *
 * The numerics are parameters: `FitTransform` stands for UMAP's
 * `fit_transform`, `FitPredict` for HDBSCAN's `fit_predict`.
 */
module Models {
  import opened Wrappers
  import opened Records

  datatype UmapConfig = UmapConfig(nNeighbors: int, minDist: real, nComponents: int, metric: string)

  datatype HdbscanConfig = HdbscanConfig(
    minClusterSize: int,
    minSamples: int,
    clusterSelectionEpsilon: real,
    metric: string,
    clusterSelectionMethod: string,
    predictionData: bool)

  /** `umap_reducer(...)`, whose defaults build the 20-dimensional reducer. */
  function UmapReducer(nNeighbors: int := 30, minDist: real := 0.0, nComponents: int := 20,
                       metric: string := "cosine"): (c: UmapConfig)
    ensures c.nNeighbors == nNeighbors && c.minDist == minDist && c.nComponents == nComponents
    ensures c.metric == metric
  {
    UmapConfig(nNeighbors, minDist, nComponents, metric)
  }

  /** `umap_reducer_2d(...)`, whose defaults build the plotting reducer. */
  function UmapReducer2d(nNeighbors: int := 15, minDist: real := 0.1, nComponents: int := 2,
                         metric: string := "cosine"): (c: UmapConfig)
    ensures c.nNeighbors == nNeighbors && c.minDist == minDist && c.nComponents == nComponents
    ensures c.metric == metric
  {
    UmapConfig(nNeighbors, minDist, nComponents, metric)
  }

  /** `hdbscan_clusterer(...)`: `prediction_data` defaults to False. */
  function HdbscanClusterer(minClusterSize: int := 250, minSamples: int := 5, clusterSelectionEpsilon: real := 0.0,
                            metric: string := "euclidean", clusterSelectionMethod: string := "eom",
                            predictionData: bool := false): (c: HdbscanConfig)
    ensures c.minClusterSize == minClusterSize && c.minSamples == minSamples && c.clusterSelectionEpsilon == clusterSelectionEpsilon
    ensures c.metric == metric && c.clusterSelectionMethod == clusterSelectionMethod && c.predictionData == predictionData
  {
    HdbscanConfig(minClusterSize, minSamples, clusterSelectionEpsilon, metric, clusterSelectionMethod, predictionData)
  }

  /** The factory defaults, as `train_models` uses them (it passes no argument). */
  lemma FactoryDefaults()
    ensures UmapReducer() == UmapConfig(30, 0.0, 20, "cosine")
    ensures UmapReducer2d() == UmapConfig(15, 0.1, 2, "cosine")
    ensures HdbscanClusterer() == HdbscanConfig(250, 5, 0.0, "euclidean", "eom", false)
    ensures UmapReducer().nComponents != UmapReducer2d().nComponents
  {
  }

  /** A pickled model: its hyper-parameters and the data it was fit on, if any. */
  datatype Artifact =
    | UmapArtifact(umap: UmapConfig, umapFitData: Option<seq<Vector>>)
    | HdbscanArtifact(hdbscan: HdbscanConfig, hdbscanFitData: Option<seq<Vector>>)

  const UmapPath := "../models/umap_model.pkl"
  const Umap2dPath := "../models/umap_2d_model.pkl"
  const HdbscanPath := "../models/hdbscan_model.pkl"

  /** The three artifact paths are distinct, so no dump overwrites another. */
  lemma ArtifactPathsDistinct()
    ensures UmapPath != Umap2dPath && UmapPath != HdbscanPath && Umap2dPath != HdbscanPath
  {
    assert UmapPath[15] != Umap2dPath[15];
    assert UmapPath[10] != HdbscanPath[10];
    assert Umap2dPath[10] != HdbscanPath[10];
  }

  /** UMAP's `fit_transform`: the embedding of the data under a configuration. */
  type FitTransform = (UmapConfig, seq<Vector>) -> seq<Vector>

  /** HDBSCAN's `fit_predict`: one label per point. */
  type FitPredict = (HdbscanConfig, seq<Vector>) -> seq<int>

  /** A `umap.UMAP` object. */
  class Reducer {
    var config: UmapConfig
    var fitData: Option<seq<Vector>>

    constructor (config: UmapConfig)
      ensures this.config == config && fitData == None
    {
      this.config := config;
      fitData := None;
    }

    /** `fit_transform`: fits on `data` and returns its embedding. */
    method FitTransform(data: seq<Vector>, fitTransform: FitTransform) returns (reduced: seq<Vector>)
      modifies this
      ensures config == old(config) && fitData == Some(data)
      ensures reduced == fitTransform(config, data)
    {
      fitData := Some(data);
      reduced := fitTransform(config, data);
    }

    /** `fit`: fits on `data`, discarding the embedding. */
    method Fit(data: seq<Vector>)
      modifies this
      ensures config == old(config) && fitData == Some(data)
    {
      fitData := Some(data);
    }

    function Snapshot(): (a: Artifact)
      reads this
      ensures a.UmapArtifact? && a.umap == config && a.umapFitData == fitData
    {
      UmapArtifact(config, fitData)
    }
  }

  /** An `hdbscan.HDBSCAN` object. */
  class Clusterer {
    var config: HdbscanConfig
    var fitData: Option<seq<Vector>>

    constructor (config: HdbscanConfig)
      ensures this.config == config && fitData == None
    {
      this.config := config;
      fitData := None;
    }

    /** `fit_predict`: fits on `data` and returns the label of each point. */
    method FitPredict(data: seq<Vector>, fitPredict: FitPredict) returns (labels: seq<int>)
      modifies this
      ensures config == old(config) && fitData == Some(data)
      ensures labels == fitPredict(config, data)
    {
      fitData := Some(data);
      labels := fitPredict(config, data);
    }

    function Snapshot(): (a: Artifact)
      reads this
      ensures a.HdbscanArtifact? && a.hdbscan == config && a.hdbscanFitData == fitData
    {
      HdbscanArtifact(config, fitData)
    }
  }

  /** The `../models` directory: what `joblib.dump` has written at each path. */
  class ModelDirectory {
    var files: map<string, Artifact>

    constructor (files: map<string, Artifact>)
      ensures this.files == files
    {
      this.files := files;
    }

    /** `joblib.dump(model, path)`: replaces whatever was at `path`. */
    method Dump(artifact: Artifact, path: string)
      modifies this
      ensures files == old(files)[path := artifact]
    {
      files := files[path := artifact];
    }
  }
}

=== FILE: records.dfy ===
/**
 * The daily article record. `parse_arxiv_rss` writes the seven text keys;
 * the embedding step adds `embedding` and `embedding_model`, which are
 * absent (None) until then.
 */
module Records {
  import opened Wrappers

  /** An embedding vector as stored in the JSON records (a list of floats). */
  type Vector = seq<real>

  datatype Record = Record(
    title: string,
    abstractText: string,  // the `abstract` key
    guid: string,
    category: string,
    link: string,
    rights: string,
    creator: string,
    embedding: Option<Vector>,
    embeddingModel: Option<string>)
}

=== FILE: text.dfy ===
/**
 * The Python string operations the scripts rely on: `str.find`-style search,
 * `str.split(sep)`, `sep.join(parts)`, `str.strip()` and zero-padded
 * decimal formatting as done by `strftime`.
 */
module Text {
  import opened Wrappers

  /** Characters for which Python's `str.isspace()` holds; `str.strip()` removes these. */
  predicate IsSpace(c: char) {
    || c == ' '
    || ('\t' <= c <= '\r')
    || ('\U{1c}' <= c <= '\U{1f}')
    || c == '\U{85}' || c == '\U{a0}' || c == '\U{1680}'
    || ('\U{2000}' <= c <= '\U{200a}')
    || c == '\U{2028}' || c == '\U{2029}' || c == '\U{202f}' || c == '\U{205f}' || c == '\U{3000}'
  }

  /** `pat` occurs in `s` starting at index `i`. */
  predicate IsAt(s: string, pat: string, i: nat) {
    i + |pat| <= |s| && s[i..i + |pat|] == pat
  }

  /** `pat` occurs nowhere in `s`. */
  predicate Free(s: string, pat: string) {
    forall i: nat :: i <= |s| ==> !IsAt(s, pat, i)
  }

  /** The first occurrence of `pat` in `s` at or after `from`. */
  function FindFrom(s: string, pat: string, from: nat): (r: Option<nat>)
    requires from <= |s|
    ensures r.Some? ==> from <= r.value && IsAt(s, pat, r.value)
    ensures r.Some? ==> forall k: nat :: from <= k < r.value ==> !IsAt(s, pat, k)
    ensures r.None? ==> forall k: nat :: from <= k ==> !IsAt(s, pat, k)
    decreases |s| - from
  {
    if from + |pat| > |s| then None
    else if s[from..from + |pat|] == pat then Some(from)
    else FindFrom(s, pat, from + 1)
  }

  /** The first occurrence of `pat` in `s`, or None when there is none. */
  function Find(s: string, pat: string): (r: Option<nat>)
    ensures r.Some? ==> IsAt(s, pat, r.value) && forall k: nat :: k < r.value ==> !IsAt(s, pat, k)
    ensures r.None? <==> Free(s, pat)
  {
    FindFrom(s, pat, 0)
  }

  /**
   * Python's `s.split(sep)` for a non-empty separator: the pieces between
   * the non-overlapping occurrences of `sep`, scanning from the left.
   */
  function Split(s: string, sep: string): (parts: seq<string>)
    requires |sep| > 0
    ensures |parts| >= 1
    decreases |s|
  {
    match Find(s, sep)
    case None => [s]
    case Some(i) => [s[..i]] + Split(s[i + |sep|..], sep)
  }

  /**
   * Python's `sep.join(parts)`: empty for no parts, the part itself for one,
   * and otherwise the first part followed by the separator and the rest.
   */
  function Join(parts: seq<string>, sep: string): (r: string)
    ensures |parts| == 0 ==> r == ""
    ensures |parts| == 1 ==> r == parts[0]
    ensures |parts| > 1 ==> parts[0] + sep <= r
  {
    if |parts| == 0 then ""
    else if |parts| == 1 then parts[0]
    else parts[0] + sep + Join(parts[1..], sep)
  }

  /** An occurrence inside a slice is an occurrence in the whole string. */
  lemma IsAtSlice(s: string, pat: string, lo: nat, hi: nat, k: nat)
    requires lo <= hi <= |s|
    requires IsAt(s[lo..hi], pat, k)
    ensures IsAt(s, pat, lo + k)
  {
    var t := s[lo..hi];
    forall j | 0 <= j < |pat|
      ensures s[lo + k + j] == pat[j]
    {
      assert t[k..k + |pat|][j] == t[k + j];
    }
    assert s[lo + k..lo + k + |pat|] == pat;
  }

  /** Joining the pieces of a split gives back the original string. */
  lemma {:induction false} JoinSplit(s: string, sep: string)
    requires |sep| > 0
    ensures Join(Split(s, sep), sep) == s
    decreases |s|
  {
    match Find(s, sep)
    case None =>
    case Some(i) =>
      var rest := s[i + |sep|..];
      var parts := Split(rest, sep);
      assert Split(s, sep) == [s[..i]] + parts;
      assert Join(parts, sep) == rest by {
        JoinSplit(rest, sep);
      }
      assert Join([s[..i]] + parts, sep) == s[..i] + sep + Join(parts, sep) by {
        JoinCons(s[..i], parts, sep);
      }
      assert s == s[..i] + sep + rest by {
        assert IsAt(s, sep, i);
        SliceAround(s, i, |sep|);
      }
  }

  /** A string is its part before `i`, the `n` characters from `i`, and the rest. */
  lemma SliceAround(s: string, i: nat, n: nat)
    requires i + n <= |s|
    ensures s == s[..i] + s[i..i + n] + s[i + n..]
  {
    assert s[..i] + s[i..i + n] == s[..i + n];
  }

  /** Joining a piece in front of at least one more puts the separator between them. */
  lemma JoinCons(p: string, parts: seq<string>, sep: string)
    requires |parts| >= 1
    ensures Join([p] + parts, sep) == p + sep + Join(parts, sep)
  {
    assert ([p] + parts)[1..] == parts;
  }

  /** No piece of a split contains the separator. */
  lemma {:induction false} SplitPartsFree(s: string, sep: string)
    requires |sep| > 0
    ensures forall p :: p in Split(s, sep) ==> Free(p, sep)
    decreases |s|
  {
    match Find(s, sep)
    case None =>
    case Some(i) =>
      SplitPartsFree(s[i + |sep|..], sep);
      forall k: nat | IsAt(s[..i], sep, k)
        ensures false
      {
        IsAtSlice(s, sep, 0, i, k);
      }
  }

  /** `parts[-1]`. */
  function Last(parts: seq<string>): string
    requires |parts| >= 1
  {
    parts[|parts| - 1]
  }

  /** `last` is a suffix of `s` that is either all of `s` or preceded by `sep`. */
  predicate TailAfterSep(s: string, last: string, sep: string) {
    && |last| <= |s| && s[|s| - |last|..] == last
    && (|last| < |s| ==> |last| + |sep| <= |s| && IsAt(s, sep, |s| - |last| - |sep|))
  }

  /**
   * The last piece of a split is a suffix of the string, and unless it is
   * the whole string it is preceded by the separator.
   */
  lemma {:induction false} SplitLast(s: string, sep: string)
    requires |sep| > 0
    ensures TailAfterSep(s, Last(Split(s, sep)), sep)
    decreases |s|
  {
    match Find(s, sep)
    case None =>
      assert Last(Split(s, sep)) == s;
    case Some(i) =>
      var rest := s[i + |sep|..];
      var parts := Split(rest, sep);
      assert Split(s, sep) == [s[..i]] + parts;
      SplitLast(rest, sep);
      TailStep(s, i, sep, Last(parts));
  }

  lemma TailStep(s: string, i: nat, sep: string, last: string)
    requires IsAt(s, sep, i)
    requires TailAfterSep(s[i + |sep|..], last, sep)
    ensures TailAfterSep(s, last, sep)
  {
    var lo := i + |sep|;
    var rest := s[lo..];
    assert |rest| == |s| - lo;
    var k := |rest| - |last|;
    assert rest[k..] == s[lo + k..];
    assert lo + k == |s| - |last|;
    if |last| < |rest| {
      assert rest == s[lo..|s|];
      IsAtSlice(s, sep, lo, |s|, k - |sep|);
      assert lo + (k - |sep|) == |s| - |last| - |sep|;
    }
  }

  /** A character of the string is an occurrence of the one-character pattern. */
  lemma CharIsAt(s: string, c: char)
    requires Free(s, [c])
    ensures c !in s
  {
    if c in s {
      var k :| 0 <= k < |s| && s[k] == c;
      assert IsAt(s, [c], k);
    }
  }

  /** With a one-character separator absent from every part, splitting a join gives back the parts. */
  lemma {:induction false} SplitJoin(parts: seq<string>, sep: string)
    requires |sep| == 1 && |parts| >= 1
    requires forall p :: p in parts ==> sep[0] !in p
    ensures Split(Join(parts, sep), sep) == parts
  {
    var s := Join(parts, sep);
    if |parts| == 1 {
      assert parts[0] in parts;
      assert Find(s, sep).None? by {
        forall k: nat | k <= |s| && IsAt(s, sep, k) ensures false {
        }
      }
    } else {
      var p := parts[0];
      var rest := Join(parts[1..], sep);
      assert s == p + sep + rest;
      assert IsAt(s, sep, |p|) by { assert s[|p|..|p| + 1] == sep; }
      assert p in parts;
      forall k: nat | k < |p|
        ensures !IsAt(s, sep, k)
      {
        assert s[k] == p[k];
      }
      assert Find(s, sep) == Some(|p|);
      assert s[..|p|] == p;
      assert s[|p| + 1..] == rest;
      SplitJoin(parts[1..], sep);
    }
  }

  /** The number of whitespace characters at the start of `s`. */
  function LeadingSpaces(s: string): (n: nat)
    ensures n <= |s|
    ensures forall i :: 0 <= i < n ==> IsSpace(s[i])
    ensures n < |s| ==> !IsSpace(s[n])
  {
    if |s| > 0 && IsSpace(s[0]) then 1 + LeadingSpaces(s[1..]) else 0
  }

  /** The number of whitespace characters at the end of `s`. */
  function TrailingSpaces(s: string): (n: nat)
    ensures n <= |s|
    ensures forall i :: |s| - n <= i < |s| ==> IsSpace(s[i])
    ensures n < |s| ==> !IsSpace(s[|s| - 1 - n])
  {
    if |s| > 0 && IsSpace(s[|s| - 1]) then 1 + TrailingSpaces(s[..|s| - 1]) else 0
  }

  /** No whitespace at either end. */
  predicate Stripped(s: string) {
    s == [] || (!IsSpace(s[0]) && !IsSpace(s[|s| - 1]))
  }

  /**
   * Python's `s.strip()`: the slice `s[lo..hi]` such that everything before
   * `lo` and from `hi` on is whitespace and the slice itself neither starts
   * nor ends with whitespace.
   */
  function Strip(s: string): (r: string)
    ensures Stripped(r)
    ensures exists lo: nat, hi: nat ::
              (&& lo <= hi <= |s| && r == s[lo..hi]
               && (forall i :: 0 <= i < lo ==> IsSpace(s[i]))
               && (forall i :: hi <= i < |s| ==> IsSpace(s[i])))
  {
    var lo := LeadingSpaces(s);
    var t := s[lo..];
    var n := TrailingSpaces(t);
    var hi := lo + |t| - n;
    assert forall i :: hi <= i < |s| ==> IsSpace(s[i]) by {
      forall i | hi <= i < |s| ensures IsSpace(s[i]) {
        assert s[i] == t[i - lo];
      }
    }
    assert Stripped(s[lo..hi]) by {
      if lo < hi {
        assert s[lo..hi][0] == s[lo];
        assert s[lo..hi][hi - lo - 1] == t[|t| - 1 - n];
      }
    }
    s[lo..hi]
  }

  /** A string free of a pattern stays free of it in every slice. */
  lemma FreeSlice(s: string, pat: string, lo: nat, hi: nat)
    requires lo <= hi <= |s|
    requires Free(s, pat)
    ensures Free(s[lo..hi], pat)
  {
    forall k: nat | IsAt(s[lo..hi], pat, k) ensures false {
      IsAtSlice(s, pat, lo, hi, k);
    }
  }

  /** Stripping never creates an occurrence of a pattern. */
  lemma StripFree(s: string, pat: string)
    requires Free(s, pat)
    ensures Free(Strip(s), pat)
  {
    var lo: nat, hi: nat :| lo <= hi <= |s| && Strip(s) == s[lo..hi];
    FreeSlice(s, pat, lo, hi);
  }

  function DigitChar(d: nat): (c: char)
    requires d < 10
    ensures '0' <= c <= '9'
  {
    ('0' as int + d) as char
  }

  /** 10 to the power `w`. */
  function Pow10(w: nat): (p: nat)
    ensures p >= 1
  {
    if w == 0 then 1 else 10 * Pow10(w - 1)
  }

  /** The last `width` decimal digits of `n`, zero-padded on the left (`%02d`, `%04d`). */
  function Digits(n: nat, width: nat): (s: string)
    ensures |s| == width
    ensures forall i :: 0 <= i < |s| ==> '0' <= s[i] <= '9'
  {
    if width == 0 then "" else Digits(n / 10, width - 1) + [DigitChar(n % 10)]
  }

  /** The value of a string of decimal digits: the inverse partner of `Digits`. */
  function DecimalValue(s: string): nat
    requires forall i :: 0 <= i < |s| ==> '0' <= s[i] <= '9'
  {
    if |s| == 0 then 0 else 10 * DecimalValue(s[..|s| - 1]) + (s[|s| - 1] as int - '0' as int)
  }

  /** Reading back the padded digits of a number that fits the width gives the number. */
  lemma {:induction false} DigitsRoundTrip(n: nat, width: nat)
    requires n < Pow10(width)
    ensures DecimalValue(Digits(n, width)) == n
  {
    if width > 0 {
      DigitsRoundTrip(n / 10, width - 1);
      var s := Digits(n, width);
      assert s[..|s| - 1] == Digits(n / 10, width - 1);
    }
  }
}

=== FILE: training.dfy ===
/**
 * scripts/0_train_models.py: gathering the embeddings of every daily file,
 * fitting the two reducers and the clusterer, dumping the three models, and
 * the summary the script prints.
 *
 * Reading a file is a parameter: `read(path)` is the list of records
 * `pd.read_json` returns for it.
 */
module Training {
  import opened Wrappers
  import opened Records
  import opened Files
  import opened Models
  import Labels

  type Reader = string -> seq<Record>

  /** `df["embedding"]` raises KeyError when no record has the column. */
  datatype TrainingError = NoEmbeddingColumn | MissingEmbedding

  /** All records of the files, file by file in list order. */
  function AllRecords(files: seq<string>, read: Reader): (rows: seq<Record>)
    ensures |files| == 0 ==> rows == []
    ensures |files| == 1 ==> rows == read(files[0])
  {
    if |files| == 0 then [] else AllRecords(files[..|files| - 1], read) + read(files[|files| - 1])
  }

  /** Reading a longer file list adds the new file's records at the end. */
  lemma {:induction false} AllRecordsAppend(files: seq<string>, more: seq<string>, read: Reader)
    ensures AllRecords(files + more, read) == AllRecords(files, read) + AllRecords(more, read)
    decreases |more|
  {
    if |more| == 0 {
      assert files + more == files;
    } else {
      var init := more[..|more| - 1];
      AllRecordsAppend(files, init, read);
      assert (files + more)[..|files + more| - 1] == files + init;
    }
  }

  /**
   * `df["embedding"].to_list()` after the concatenation: KeyError when no
   * record carries an embedding, else one cell per record, missing where a
   * record lacks one (pandas fills NaN).
   */
  function EmbeddingColumn(rows: seq<Record>): (r: Result<seq<Option<Vector>>, TrainingError>)
    ensures r.Failure? <==> forall k :: 0 <= k < |rows| ==> rows[k].embedding.None?
    ensures r.Success? ==> |r.value| == |rows| && forall k :: 0 <= k < |rows| ==> r.value[k] == rows[k].embedding
  {
    if forall k :: 0 <= k < |rows| ==> rows[k].embedding.None? then Failure(NoEmbeddingColumn)
    else Success(seq(|rows|, k requires 0 <= k < |rows| => rows[k].embedding))
  }

  /**
   * `get_training_data`: `df` starts empty and is rebound to its
   * concatenation with each file's frame in list order.
   */
  method GetTrainingData(listing: seq<DirEntry>, read: Reader) returns (r: Result<seq<Option<Vector>>, TrainingError>)
    ensures r == EmbeddingColumn(AllRecords(GetFileList(DataDirectory, listing), read))
  {
    var files := GetFileList(DataDirectory, listing);
    var df: seq<Record> := [];
    var i := 0;
    while i < |files|
      invariant 0 <= i <= |files|
      invariant df == AllRecords(files[..i], read)
    {
      assert files[..i + 1][..i] == files[..i];
      df := df + read(files[i]);
      i := i + 1;
    }
    assert files[..i] == files;
    r := EmbeddingColumn(df);
  }

  /** The training data keeps every record's embedding, file by file and record by record. */
  lemma TrainingDataOrder(files: seq<string>, more: seq<string>, read: Reader)
    requires EmbeddingColumn(AllRecords(files, read)).Success?
    ensures var r := EmbeddingColumn(AllRecords(files + more, read));
      var first := EmbeddingColumn(AllRecords(files, read)).value;
      && r.Success?
      && |first| <= |r.value|
      && r.value[..|first|] == first
  {
    var rows := AllRecords(files, read);
    var all := AllRecords(files + more, read);
    assert |rows| <= |all| && forall i :: 0 <= i < |rows| ==> all[i] == rows[i] by {
      AllRecordsAppend(files, more, read);
    }
    var k :| 0 <= k < |rows| && rows[k].embedding.Some?;
    assert all[k].embedding.Some?;
    var column := EmbeddingColumn(all).value;
    var first := EmbeddingColumn(rows).value;
    forall i | 0 <= i < |first|
      ensures column[i] == first[i]
    {
      assert all[i] == rows[i];
    }
    assert column[..|first|] == first;
  }

  /** The column with no missing cell, as UMAP accepts it. */
  function Complete(column: seq<Option<Vector>>): (r: Option<seq<Vector>>)
    ensures r.Some? <==> forall k :: 0 <= k < |column| ==> column[k].Some?
    ensures r.Some? ==> |r.value| == |column| && forall k :: 0 <= k < |column| ==> column[k] == Some(r.value[k])
  {
    if |column| == 0 then Some([])
    else match (column[0], Complete(column[1..]))
      case (Some(v), Some(rest)) => Some([v] + rest)
      case _ => None
  }

  /**
   * The directory after a successful `train_models`: the main reducer fit on
   * the embeddings, the 2-D reducer fit on the same embeddings, the
   * clusterer fit on the main reducer's output.
   */
  function TrainedModels(files: map<string, Artifact>, embeddings: seq<Vector>, fitTransform: FitTransform)
    : (m: map<string, Artifact>)
    ensures m.Keys == files.Keys + {UmapPath, Umap2dPath, HdbscanPath}
  {
    files[UmapPath := UmapArtifact(UmapReducer(), Some(embeddings))]
         [Umap2dPath := UmapArtifact(UmapReducer2d(), Some(embeddings))]
         [HdbscanPath := HdbscanArtifact(HdbscanClusterer(), Some(fitTransform(UmapReducer(), embeddings)))]
  }

  /**
   * What training leaves at the three paths: the clusterer's data is the main
   * reducer's output over the embeddings, the 2-D reducer's data is the
   * embeddings themselves, no parameter is changed from its default, and
   * the clusterer keeps no prediction data. Every other file is untouched.
   */
  lemma TrainedModelsWiring(files: map<string, Artifact>, embeddings: seq<Vector>, fitTransform: FitTransform)
    ensures var m := TrainedModels(files, embeddings, fitTransform);
      && UmapPath in m && Umap2dPath in m && HdbscanPath in m
      && m[UmapPath] == UmapArtifact(UmapConfig(30, 0.0, 20, "cosine"), Some(embeddings))
      && m[Umap2dPath] == UmapArtifact(UmapConfig(15, 0.1, 2, "cosine"), Some(embeddings))
      && m[HdbscanPath].HdbscanArtifact?
      && m[HdbscanPath].hdbscan == HdbscanConfig(250, 5, 0.0, "euclidean", "eom", false)
      && m[HdbscanPath].hdbscanFitData == Some(fitTransform(m[UmapPath].umap, embeddings))
      && !m[HdbscanPath].hdbscan.predictionData
      && forall p :: p in files && p !in {UmapPath, Umap2dPath, HdbscanPath} ==> p in m && m[p] == files[p]
  {
    ArtifactPathsDistinct();
  }

  /**
   * `train_models`: a straight-line sequence of `fit` calls on fresh model
   * objects, then the three dumps. When the data cannot be gathered or has a
   * missing embedding, the script raises before any dump.
   */
  method TrainModels(dir: ModelDirectory, listing: seq<DirEntry>, read: Reader,
                     fitTransform: FitTransform, fitPredict: FitPredict)
    returns (r: Result<seq<int>, TrainingError>)
    modifies dir
    ensures var column := EmbeddingColumn(AllRecords(GetFileList(DataDirectory, listing), read));
      if column.Failure? then r == Failure(NoEmbeddingColumn) && dir.files == old(dir.files)
      else if Complete(column.value).None? then r == Failure(MissingEmbedding) && dir.files == old(dir.files)
      else
        var embeddings := Complete(column.value).value;
        && r == Success(fitPredict(HdbscanClusterer(), fitTransform(UmapReducer(), embeddings)))
        && dir.files == TrainedModels(old(dir.files), embeddings, fitTransform)
  {
    var column := GetTrainingData(listing, read);
    if column.Failure? {
      return Failure(NoEmbeddingColumn);
    }
    var complete := Complete(column.value);
    if complete.None? {
      return Failure(MissingEmbedding);
    }
    var embeddings := complete.value;
    var umapModel := new Reducer(UmapReducer());
    var umap2dModel := new Reducer(UmapReducer2d());
    var hdbscanModel := new Clusterer(HdbscanClusterer());
    var reduced := umapModel.FitTransform(embeddings, fitTransform);
    var labels := hdbscanModel.FitPredict(reduced, fitPredict);
    umap2dModel.Fit(embeddings);
    dir.Dump(umapModel.Snapshot(), UmapPath);
    dir.Dump(umap2dModel.Snapshot(), Umap2dPath);
    dir.Dump(hdbscanModel.Snapshot(), HdbscanPath);
    return Success(labels);
  }

  /** The three lines the script prints after training. */
  datatype Summary = Summary(observations: nat, noise: nat, labelCount: Result<int, Labels.MaxError>)

  function TrainingSummary(labels: seq<int>): (s: Summary)
    ensures s.observations == |labels| && s.noise == multiset(labels)[Labels.Noise]
    ensures s.noise <= s.observations
    ensures s.labelCount.Failure? <==> |labels| == 0
    ensures s.labelCount == Labels.LabelCount(labels)
    ensures s.labelCount.Success? ==>
      s.labelCount.value - 2 in labels && forall x :: x in labels ==> x <= s.labelCount.value - 2
  {
    Labels.CountNoiseIsMultiplicity(labels);
    Summary(|labels|, Labels.CountNoise(labels), Labels.LabelCount(labels))
  }
}

=== FILE: wrappers.dfy ===
/** Option and Result, the failure-carrying values used across the model. */
module Wrappers {

  datatype Option<+T> = None | Some(value: T)

  datatype Result<+R, +E> = Success(value: R) | Failure(error: E)
}
